=== FILE: README.md ===
# Product record store, modelled in Dafny

This project models the record store of the Laravel product API: the single
`products` table, the `Product` Eloquent model with its creating hook, and the
five REST endpoints of `ProductController` (index, store, show, update,
destroy). The store is a sequential state machine over an immutable table
value. Every endpoint is a pure function from a table and a request to a
`Reply`. A reply holds the table afterwards and the response with its HTTP
status (200, 201, 404, 422, or 500 when the database refuses a write).

Modules, following the program's structure:

- `Base` (`base.dfy`): `Option` and `Timestamp`. It also holds the PHP string behaviour the store relies on. That is the blank test behind `trim()`, `empty()` on an attribute (null, `""` and `"0"`), ASCII `strtoupper()`, the byte length of a string's UTF-8 encoding, and the decimal rendering of an integer, with its parser and both round trips.
- `Sku` (`sku.dfy`): the derived SKU `"CT" + strtoupper(substr(country_code, 0, 2)) + nextId`, and `Parse`, its inverse. `substr` counts bytes, so `FirstTwoBytes` takes the whole characters that make up the code's first two UTF-8 bytes, or reports that those bytes split a character.
- `Schema` (`schema.dfy`): the migration. It defines the row, the table with its id sequence, the column constraints, the `Valid` invariant, and INSERT / UPDATE / soft-delete. Soft delete sets `deleted_at`.
- `ProductModel` (`product_model.dfy`): `Product.php`. It holds the fillable attributes, `NextId` (latest row including trashed, plus one), the creating hook, and create / update / delete.
- `Validation` (`validation.dfy`): the controller's rule strings, read the way the framework's validator reads them. `required` fails on a missing, null or blank value. The other rules do not run on a missing field or a blank string, and `nullable` also stops them on null.
- `ProductController` (`product_controller.dfy`): the endpoints and the lemmas that relate them.
- `SeedExample` (`seed_example.dfy`): the seeder's five creates, replayed from an empty table, and the table they build. The next derived SKU there carries 6.

Modelling choices:

- The current time is a parameter (`now`).
- `latest()` is the last row in storage order. Rows are only ever appended and never removed, so this is also the row with the largest id.
- A failed insert does not consume an id. So the id the database assigns always equals the hook's `NextId`, and a derived SKU embeds its own row's id (`ProductModel.CreateDerivedSku`).
- The database is strict, as MySQL is in strict mode. These writes are refused, and the request fails with 500:
  - a value longer than its column (name 255, country_code 2), unless every character past the width is a space. Such spaces are dropped in every SQL mode, and the CHAR column also gives its value back without trailing spaces;
  - a NULL in a NOT NULL column;
  - a date outside the TIMESTAMP range (1970-01-01 00:00:01 to 2038-01-19 03:14:07 UTC), for `load_date`, `deleted_at` and the clock written into `created_at` and `updated_at` alike;
  - a string that is no datetime, written to a TIMESTAMP column;
  - a string that is not valid UTF-8.
- `created_at` and `updated_at` receive the clock on every insert, on every update that changes a stored value, and on soft delete. The model checks the clock against the TIMESTAMP range there, but does not store the two columns. An update whose supplied values all equal the stored ones runs no query, as Eloquent's dirty check decides, so it succeeds whatever the clock.
- `load_date` is never cast to a date. Laravel 10 and later ignore the `$dates` property of `Product.php`, and the migration's anonymous-class form with `: void` points to such a version. So the request's string reaches the TIMESTAMP column as it is. Two parsers judge it, and `DateValue` records both verdicts, which are opaque to the model:
  - `Date(t)`: PHP's parser behind the `date` rule accepts it and the database reads it as the instant `t`;
  - `DateUnreadable(s)`: the `date` rule accepts it, but the database cannot read it (`"Jan 20, 2024"`);
  - `NotADate`: the `date` rule rejects it.
- A blank `load_date` string stays the string it is. The `date` rule does not run on it.
- On create, the hook replaces a `load_date` string with now only when `empty()` holds for it (`""`). Any other unreadable string, blank or not, reaches the TIMESTAMP column and is refused.
- Update validates a present blank `name` or `country_code` string as acceptable, because the validator skips non-implicit rules on blank strings. Such a string is then written as given. A run of spaces fits its column, which drops the excess. A blank string with another character past the width, such as a tab, is refused.
- An UPDATE sets only the attributes that differ from the stored ones, as Eloquent's dirty check decides.
- The SKU number is the id of the latest row plus one, soft-deleted rows included. `ProductModel.NextIdIsFresh` shows that on every valid table this is also above every id ever assigned.
- Strings are sequences of Unicode characters. Where PHP counts bytes (`substr`), the model counts each character's UTF-8 width. Where the validator counts characters (`max`, `size`), the model counts characters.

## Model

| member | source | states |
|---|---|---|
| `ProductController.ActiveRows` | laravel-api/app/Http/Controllers/ProductController.php:20 | every row whose deleted_at is null occurs in the result exactly as often as it is stored, and no other row occurs |
| `ProductController.Index` | laravel-api/app/Http/Controllers/ProductController.php:17-27 | the listing is, as a multiset, exactly the active rows of the table |
| `ProductController.Status` | laravel-api/app/Http/Controllers/ProductController.php:23-151 | 201 only for a creation; 404, 422 or 500 exactly for a missing row, a rejected body or a refused write; 200 for every other answer |
| `ProductController.Store` | laravel-api/app/Http/Controllers/ProductController.php:35-65 | an invalid body gives 422 with exactly the failing fields and an unchanged table; a valid one appends exactly one active row built from name, country_code (as its CHAR column gives it back) and load_date (or now), whose SKU is the derived one and parses to the upper-cased first two bytes of the code and the next id; a code whose first two bytes split a character, a load_date string the database cannot read (whitespace-only, or only PHP can parse it) and that `empty()` does not hold for, or a clock outside the TIMESTAMP range gives 500 with the table unchanged; the table changes exactly when the status is 201 |
| `ProductController.ValidStoreSucceeds` | laravel-api/app/Http/Controllers/ProductController.php:53-64 | while derived-shape SKUs lag behind the next id, a valid create returns 201 exactly when the code's first two bytes are whole characters, a load_date string the database cannot read is one `empty()` holds for, and the load date and the clock written to created_at fit the TIMESTAMP columns; the stored SKU then names the new row's own id |
| `ProductController.FindActive` | laravel-api/app/Http/Controllers/ProductController.php:75 | finds a position holding an active row with the id, and finds none exactly when no such row exists |
| `ProductController.Show` | laravel-api/app/Http/Controllers/ProductController.php:72-88 | 404 exactly when no active row has the id (missing or soft-deleted); otherwise the stored active row with that id |
| `ProductController.RequestChanges` | laravel-api/app/Http/Controllers/ProductController.php:122 | a name or country_code is forwarded with the body's value exactly when the body holds a string for it; a load_date as the instant the database reads, as the string it is when the database cannot read it, or as NULL; once the rules pass, a field is forwarded exactly when the body holds it |
| `ProductController.Patch` | laravel-api/app/Http/Controllers/ProductController.php:98-128 | the row lookup comes before validation: no active row gives 404 whatever the body; then invalid input gives 422; the status is 200 exactly when the update succeeds; the table changes only then, and only the supplied fields of that row change, each to what its column holds of the value, while its id, SKU, active state and position, every other row and the id sequence stay the same |
| `ProductController.UpdateAsWritten` | laravel-api/app/Http/Controllers/ProductController.php:95-129 | the update with the rules as written: 404 before validation, 422 on invalid input, table unchanged on every failure, 200 exactly on success, and then only the supplied fields change |
| `ProductController.UnreadableLoadDateUpdateIsServerError` | laravel-api/app/Http/Controllers/ProductController.php:108-122 | a load_date string the database cannot read (blank, on which `date` does not run, or one only PHP's parser reads, which `date` accepts) passes both readings of the update rules and is then refused by the TIMESTAMP column with a 500, the table unchanged |
| `ProductController.NullLoadDateUpdateIsServerError` | laravel-api/app/Http/Controllers/ProductController.php:111 | as written, a null load_date passes validation on an active row and then fails at the NOT NULL column with a 500 |
| `ProductController.Update` | laravel-api/app/Http/Controllers/ProductController.php:95-129 | the corrected variant of line 111 (see Findings), with load_date read as `sometimes` and `date`: 404 for a missing or deleted id whatever the body; 422 on invalid input; 200 exactly on success, and then only the supplied name, country_code and load_date change, while the id, SKU, active state, position and every other row stay the same |
| `ProductController.ValidatedUpdateSucceeds` | laravel-api/app/Http/Controllers/ProductController.php:108-128 | with load_date read as optional, a null load_date is a 422, and a validated update of an active row returns 200 exactly when its load_date is no string the database cannot read and lies in the TIMESTAMP range, and, if it changes a stored value, name and country_code fit their columns (excess spaces allowed) and the clock written to updated_at fits too |
| `ProductController.Destroy` | laravel-api/app/Http/Controllers/ProductController.php:136-153 | a missing or already deleted id gives 404 with the table unchanged; otherwise the row stays in place with deleted_at set to now and nothing else changes, or, with a clock outside the TIMESTAMP range, 500 with the table unchanged; the status is 200 exactly in the first of these |
| `ProductController.DestroyDeactivates` | laravel-api/app/Http/Controllers/ProductController.php:138-147 | after a successful destroy no active row carries the id, yet a row with that id is still stored |
| `ProductController.DestroyedIdIsGone` | laravel-api/app/Http/Controllers/ProductController.php:136-153 | after a successful destroy the id is absent from the listing, and show, both update variants and a second destroy all answer 404 with the table unchanged |
| `ProductController.DestroyKeepsNextSku` | laravel-api/app/Models/Product.php:30 | destroying a row does not change the number the next derived SKU carries |
| `ProductController.StoreKeepsValid` | laravel-api/database/migrations/2025_12_05_022322_create_products_table.php:12-16 | store preserves increasing unique ids, unique SKUs, values that fit their columns and the lag of derived SKUs |
| `ProductController.UpdateKeepsValid` | laravel-api/database/migrations/2025_12_05_022322_create_products_table.php:12-16 | both update variants preserve the schema invariant and the lag of derived SKUs |
| `ProductController.DestroyKeepsValid` | laravel-api/database/migrations/2025_12_05_022322_create_products_table.php:12-17 | destroy preserves the schema invariant and the lag of derived SKUs |
| `Validation.NameOnStore` | laravel-api/app/Http/Controllers/ProductController.php:39 | the rules `required`, `string`, `max:255` accepts exactly a non-blank string of at most 255 characters |
| `Validation.CountryCodeOnStore` | laravel-api/app/Http/Controllers/ProductController.php:40 | the rules `required`, `string`, `size:2` accepts exactly a non-blank string of exactly 2 characters |
| `Validation.LoadDateNullable` | laravel-api/app/Http/Controllers/ProductController.php:41 | the rules `nullable`, `date` pass a missing field, null and a blank string, on which `date` does not run, and otherwise pass exactly a string PHP's date parser reads, whether or not the database can read it |
| `Validation.NameOnUpdate` | laravel-api/app/Http/Controllers/ProductController.php:109 | the rules `sometimes`, `string`, `max:255` accepts a missing field, a blank string or a string of at most 255 characters; null and non-strings fail |
| `Validation.CountryCodeOnUpdate` | laravel-api/app/Http/Controllers/ProductController.php:110 | the rules `sometimes`, `string`, `size:2` accepts a missing field, a blank string or a string of exactly 2 characters |
| `Validation.LoadDateOptional` | laravel-api/app/Http/Controllers/ProductController.php:111 | the corrected rules, `sometimes` and `date`, pass a missing field and a blank string, and otherwise pass exactly a string PHP's date parser reads; null fails because `date` runs on it |
| `Validation.StoreErrors` | laravel-api/app/Http/Controllers/ProductController.php:38-50 | name is reported unless it is a non-blank string of at most 255 characters, country_code unless it is a non-blank string of exactly 2, load_date exactly when it is not a date; the body passes exactly when none is reported |
| `Validation.UpdateErrors` | laravel-api/app/Http/Controllers/ProductController.php:108-114 | name is reported unless it is missing, blank or a string of at most 255 characters, country_code likewise with exactly 2, and load_date when it is not a date, or when it is null under `sometimes` |
| `ProductModel.NextId` | laravel-api/app/Models/Product.php:30-31 | at least 1, and above the id of the latest row |
| `ProductModel.NextIdIsFresh` | laravel-api/app/Models/Product.php:30-31 | in a valid table the next id equals the id the sequence assigns and exceeds every id ever used, soft-deleted rows included |
| `ProductModel.Creating` | laravel-api/app/Models/Product.php:26-38 | an empty SKU (null, "" or "0") becomes the derived one, which parses to the upper-cased first two bytes of the code and the next id, or is not UTF-8 exactly when those bytes split a character; a non-empty SKU is kept verbatim; an empty load_date (null, "" or "0") becomes now, and any other, a whitespace-only string included, is kept |
| `ProductModel.Create` | laravel-api/app/Models/Product.php:26-38 | create succeeds exactly when the hook's SKU is UTF-8 and not taken, name and country_code fit their columns up to trailing spaces, the load date is an instant in the TIMESTAMP range and so is the clock written to created_at and updated_at; the created row is appended with the next sequence id, the name and code as their columns hold them, the hook's SKU and load_date, and a null deleted_at |
| `ProductModel.CreateDerivedSku` | laravel-api/app/Models/Product.php:28-33 | with a derived SKU and a two-character code, create succeeds exactly when the code's first two bytes are whole characters, the load date is an instant in the TIMESTAMP range and the clock fits created_at, and the SKU then parses to the code's first two bytes and the row's own id |
| `ProductModel.Update` | laravel-api/app/Http/Controllers/ProductController.php:122 | an update whose supplied values all equal the stored ones runs no query and succeeds with the table unchanged; any other succeeds exactly when each changed value is storable (load_date neither NULL nor a string the database cannot read, and in the TIMESTAMP range; name and country_code within their width but for trailing spaces) and the clock written to updated_at lies in the range; only supplied attributes change, each to what its column holds of it, and id, SKU and deleted_at are kept even when country_code changes |
| `ProductModel.Delete` | laravel-api/app/Models/Product.php:11 | deletion keeps the row in place and marks it inactive by setting deleted_at; every other row and the id sequence stay the same; a clock outside the TIMESTAMP range is refused |
| `ProductModel.DeleteKeepsNextId` | laravel-api/app/Models/Product.php:30 | soft deletion does not change the next id |
| `ProductModel.CreateKeepsValid` | laravel-api/database/migrations/2025_12_05_022322_create_products_table.php:12-16 | create preserves the schema invariant, and the lag of derived SKUs when the SKU is derived |
| `ProductModel.UpdateKeepsValid` | laravel-api/database/migrations/2025_12_05_022322_create_products_table.php:12-16 | update preserves the schema invariant and the lag of derived SKUs |
| `ProductModel.DeleteKeepsValid` | laravel-api/database/migrations/2025_12_05_022322_create_products_table.php:12-17 | delete preserves the schema invariant and the lag of derived SKUs |
| `Schema.Insert` | laravel-api/database/migrations/2025_12_05_022322_create_products_table.php:12-18 | an insert succeeds exactly when name and country_code fit their columns, where excess trailing spaces are dropped and any other excess refused, load_date is an instant in the TIMESTAMP range, the clock written to created_at and updated_at is in that range too, and no row, soft-deleted or not, has the SKU; a taken SKU is a unique violation and an unreadable load_date string an incorrect value; the row holds name and code as their columns keep them |
| `Schema.InsertKeepsValid` | laravel-api/database/migrations/2025_12_05_022322_create_products_table.php:12-16 | the inserted id exceeds every existing id, and the invariant survives |
| `Schema.VarcharValue` | laravel-api/database/migrations/2025_12_05_022322_create_products_table.php:13 | a VARCHAR(255) column keeps a prefix of the string within the width, the string itself when it fits, and drops only spaces from a string it takes |
| `Schema.CharValue` | laravel-api/database/migrations/2025_12_05_022322_create_products_table.php:15 | a CHAR(2) column gives back a prefix of the string within the width and without trailing spaces, drops only spaces from a string it takes, and gives a short string without trailing spaces back unchanged |
| `Schema.TrimTrailingSpaces` | laravel-api/database/migrations/2025_12_05_022322_create_products_table.php:15 | the result is a prefix of the string, everything after it is a space, and it does not end in a space |
| `Schema.UpdateAt` | laravel-api/database/migrations/2025_12_05_022322_create_products_table.php:13-18 | an update of the given columns succeeds exactly when a given load_date is neither NULL nor an unreadable string and lies in the TIMESTAMP range, a given name or country_code fits its column up to trailing spaces, and the clock written to updated_at lies in the range; columns not given keep their values |
| `Schema.UpdateKeepsValid` | laravel-api/database/migrations/2025_12_05_022322_create_products_table.php:12-16 | an update preserves the invariant |
| `Schema.SoftDeleteAt` | laravel-api/database/migrations/2025_12_05_022322_create_products_table.php:17 | soft delete succeeds exactly when the clock lies in the TIMESTAMP range, and then sets deleted_at of one row and leaves every other row as it was |
| `Schema.SoftDeleteKeepsValid` | laravel-api/database/migrations/2025_12_05_022322_create_products_table.php:17 | soft delete preserves the invariant |
| `Sku.FirstTwoBytes` | laravel-api/app/Models/Product.php:29 | the result is the prefix of the code whose UTF-8 encoding is exactly its first two bytes (or the whole code when shorter); there is none exactly when no prefix of whole characters has that byte length |
| `Sku.Derive` | laravel-api/app/Models/Product.php:29-32 | the derived SKU is well-formed exactly when the code's first two bytes are whole characters, and then parses back to their upper-cased form and the id |
| `Sku.Parse` | laravel-api/app/Models/Product.php:32 | a parsed SKU is "CT", a country part of two bytes and the canonical decimal of its number |
| `Sku.ParseWellFormed` | laravel-api/app/Models/Product.php:32 | "CT", any two-byte country part and a number parse back to that part and number |
| `Sku.DeriveInjective` | laravel-api/app/Models/Product.php:32 | two derived SKUs coincide only for the same id and upper-cased country part |
| `Sku.DerivedDiffersFrom` | laravel-api/app/Models/Product.php:32 | a SKU that does not parse to number n is never the SKU derived from n |
| `Base.UpperKeepsUtf8Length` | laravel-api/app/Models/Product.php:29 | `strtoupper` keeps the UTF-8 byte length of a string |
| `Base.DecimalRoundTrip` | laravel-api/app/Models/Product.php:32 | the decimal rendering of the next id is canonical and reads back to the id |
| `Base.ParseDecimalRoundTrip` | laravel-api/app/Models/Product.php:32 | every canonical numeral is the rendering of its value |
| `Base.DecimalInjective` | laravel-api/app/Models/Product.php:32 | distinct ids render differently |
| `SeedExample.SeederBuildsSeededTable` | laravel-api/database/seeders/ProductSeeder.php:16-51 | with a clock in the TIMESTAMP range the seeder's five creates on an empty table succeed and build exactly the seeded table |
| `SeedExample.SeederRefusesClock` | laravel-api/database/seeders/ProductSeeder.php:49-51 | with a clock outside the TIMESTAMP range the seeder's first create is refused at created_at |
| `SeedExample.FreshIsValid` | laravel-api/database/migrations/2025_12_05_022322_create_products_table.php:11-18 | a new empty table satisfies the invariant and the lag of derived SKUs, and its next id is 1 |
| `SeedExample.SeededTableValid` | laravel-api/database/seeders/ProductSeeder.php:16-51 | the seeded table satisfies the invariant and its next id is 6 |
| `SeedExample.SeededSkusBehind` | laravel-api/database/seeders/ProductSeeder.php:16-47 | the seeded SKUs carry numbers below 6 |
| `SeedExample.SeededStoreDerivesSix` | laravel-api/database/seeders/ProductSeeder.php:16-51 | a valid create after seeding answers 201 exactly when the clock lies in the TIMESTAMP range, and then returns id 6 with a SKU numbered 6 |
| `SeedExample.SeededStoreTwoByteCode` | laravel-api/app/Models/Product.php:29-32 | after seeding, a create with country code "ÑA" answers 201 exactly when the clock lies in the TIMESTAMP range, and then stores the SKU "CTÑ6" |
| `SeedExample.SeededStoreSplitCharacter` | laravel-api/app/Models/Product.php:29-32 | after seeding, a create with country code "AÑ" passes validation and then fails with 500, the table unchanged |
| `SeedExample.SeededStoreUnreadableDate` | laravel-api/app/Http/Controllers/ProductController.php:41-57 | after seeding, a create with load_date "Jan 20, 2024", which the `date` rule accepts and the database cannot read, fails with 500, the table unchanged |
| `SeedExample.SeededUpdateSpacesCode` | laravel-api/app/Http/Controllers/ProductController.php:110-122 | after seeding, an update of id 1 with country_code "   " answers 200, and the code reads back as the empty string |

## Left out

- The enrichment proxy (`nodejs-api/server.js`) and the demonstration clients: network forwarding, static lookup tables and console output, outside the record store.
- Response message strings and JSON shapes: a response is a constructor and its HTTP status.
- The values of `created_at` and `updated_at`: only the range check on the clock they receive is modelled, so listed rows omit them.
- ProductModel.Update: the dirty check compares a load date as an instant. The uncast attribute is compared as a string, so a different spelling of the stored instant (`"2024-01-20"` against `"2024-01-20 00:00:00"`) is written again. The two differ only when the clock lies outside the TIMESTAMP range, where such a write fails at `updated_at`.
- Response bodies: a reply carries the row as the table holds it. The source's JSON echoes the attributes as assigned, so a country code with trailing spaces, or the raw `load_date` string, appears there as sent.
- Date parsing, both PHP's behind the `date` rule and the database's reader of datetime literals: represented by the verdicts `DateValue` records.
- Request middleware: the model takes the framework's default `TrimStrings` and `ConvertEmptyStringsToNull` middleware to be absent, and validates the body as the client sent it. With them installed, a blank string reaches the controller as null. A blank `name` on update would then fail `string` with 422, where the model answers 200.
- Concurrent creates racing on `NextId`: the model is sequential.
- Tie-breaking of `latest()` on equal `created_at`: the latest row is the last one inserted.
- Ids lost by failed inserts in engines whose sequences advance anyway: a failed insert leaves the table and its sequence unchanged.
- The width of the `sku` column and overflow of the 64-bit id: integers are unbounded, and derived SKUs stay far below 255 characters for any real id.
- Lenient database modes: these truncate overlong values, replace NULL with a default, or store out-of-range dates and malformed text as given. The database is taken to be strict.
- Time zones: timestamps are Unix seconds, and the TIMESTAMP range is read in UTC.
- Creating through the model with a null name or country_code, and updating `sku` through the model: no caller in the record store does either.
- Row order of the listing: the query has no ORDER BY, and the model lists rows in storage order.
- Schema.Insert: SKUs are compared exactly, as under a binary collation. The framework's default MySQL collation, `utf8mb4_unicode_ci`, ignores case and accents, so there "CTN23" and "CTÑ23" collide on the unique index and the second create fails with 500.
- ProductController.ValidStoreSucceeds: rests on that exact comparison. Under a case- and accent-insensitive collation, a derived SKU can collide with an earlier one that differs from it only in case or accents.
- Path ids are integers. The route hands `{id}` to `find()` as a string, and MySQL's string-to-number comparison (where "12abc" finds id 12 and "abc" finds nothing) is not modelled.

## Findings

| source | as written | input that shows it | evidently intended | confidence | as-written member | corrected member |
|---|---|---|---|---|---|---|
| laravel-api/app/Http/Controllers/ProductController.php:111 | update validates load_date as `nullable` and `date`, but the migration declares load_date NOT NULL (create_products_table.php line 16), so a null load_date passes validation and is then refused by the database | `PUT /products/{id}` on an active row with body `{"load_date": null}` | a body the rules accept is stored; a null load_date is refused with 422, as with `sometimes` and `date` | medium, not executed; depends on the database refusing NULL for the column, as SQLite and strict MySQL do | `ProductController.UpdateAsWritten`, proved by `ProductController.NullLoadDateUpdateIsServerError` | `ProductController.Update`, proved by `ProductController.ValidatedUpdateSucceeds` |

=== FILE: base.dfy ===
/** Shared vocabulary of the record store: optional values, timestamps, and
    the few PHP string operations the store relies on (the blank test behind
    trim(), empty() on an attribute, ASCII strtoupper(), and the decimal
    rendering of an integer inside a string interpolation). */
module Base {

  datatype Option<+T> = None | Some(value: T)

  /** A point on the server clock. The model never reads a clock: the
      current time is always passed in as a parameter. */
  type Timestamp = int

  /** The characters PHP's trim() strips by default. */
  predicate IsTrimmable(c: char) {
    c == ' ' || c == '\t' || c == '\n' || c == '\r' || c == '\0' || c == '\U{000B}'
  }

  /** A string that trim() reduces to "". */
  predicate Blank(s: string) {
    forall i :: 0 <= i < |s| ==> IsTrimmable(s[i])
  }

  /** PHP's empty() on a nullable string attribute: null, "" and "0" are all
      empty; every other string, "00" and " " included, is not. */
  predicate IsEmpty(s: Option<string>) {
    s == None || s == Some("") || s == Some("0")
  }

  /** strtoupper() on one character: ASCII letters only, everything else kept. */
  function UpperChar(c: char): char {
    if 'a' <= c <= 'z' then (c as int - 32) as char else c
  }

  function Upper(s: string): (r: string)
    ensures |r| == |s|
  {
    seq(|s|, i requires 0 <= i < |s| => UpperChar(s[i]))
  }

  /** How many bytes the UTF-8 encoding of a character takes. */
  function Utf8Width(c: char): (w: nat)
    ensures 1 <= w <= 4
  {
    if c as int < 0x80 then 1
    else if c as int < 0x800 then 2
    else if c as int < 0x10000 then 3
    else 4
  }

  /** The length in bytes of a string's UTF-8 encoding, which is what PHP's
      byte-oriented string functions count. */
  function Utf8Length(s: string): nat {
    if |s| == 0 then 0 else Utf8Length(s[..|s| - 1]) + Utf8Width(s[|s| - 1])
  }

  /** A longer prefix never encodes to fewer bytes. */
  lemma {:induction false} Utf8LengthMonotone(s: string, k: nat, m: nat)
    requires k <= m <= |s|
    ensures Utf8Length(s[..k]) <= Utf8Length(s[..m])
  {
    if k < m {
      Utf8LengthMonotone(s, k, m - 1);
      assert s[..m][..m - 1] == s[..m - 1];
    }
  }

  /** Every character takes at least one byte. */
  lemma {:induction false} Utf8LengthAtLeast(s: string)
    ensures Utf8Length(s) >= |s|
  {
    if |s| > 0 {
      Utf8LengthAtLeast(s[..|s| - 1]);
    }
  }

  /** strtoupper() only touches ASCII letters, so it keeps the length of a
      string's encoding. */
  lemma {:induction false} UpperKeepsUtf8Length(s: string)
    ensures Utf8Length(Upper(s)) == Utf8Length(s)
  {
    if |s| > 0 {
      UpperKeepsUtf8Length(s[..|s| - 1]);
      assert Upper(s)[..|s| - 1] == Upper(s[..|s| - 1]);
    }
  }

  predicate IsDigit(c: char) {
    '0' <= c <= '9'
  }

  function DigitChar(d: nat): (c: char)
    requires d < 10
    ensures IsDigit(c)
  {
    ('0' as int + d) as char
  }

  function DigitValue(c: char): (d: nat)
    requires IsDigit(c)
    ensures d < 10
  {
    c as int - '0' as int
  }

  /** The decimal numeral PHP writes for a non-negative integer. */
  function Decimal(n: nat): string
  {
    if n < 10 then [DigitChar(n)] else Decimal(n / 10) + [DigitChar(n % 10)]
  }

  predicate AllDigits(s: string) {
    forall i :: 0 <= i < |s| ==> IsDigit(s[i])
  }

  /** The number a string of decimal digits denotes. */
  function DigitsValue(s: string): nat
    requires AllDigits(s)
  {
    if |s| == 0 then 0 else DigitsValue(s[..|s| - 1]) * 10 + DigitValue(s[|s| - 1])
  }

  /** A numeral as PHP writes one: digits only, and no leading zero unless it is "0". */
  predicate Canonical(s: string) {
    |s| > 0 && AllDigits(s) && (|s| > 1 ==> s[0] != '0')
  }

  /** Reads a canonical numeral back; None for every other string. */
  function ParseDecimal(s: string): (r: Option<nat>)
    ensures r.Some? <==> Canonical(s)
  {
    if Canonical(s) then Some(DigitsValue(s)) else None
  }

  /** Decimal writes canonical numerals, and reading one back gives the number. */
  lemma {:induction false} DecimalRoundTrip(n: nat)
    ensures Canonical(Decimal(n))
    ensures ParseDecimal(Decimal(n)) == Some(n)
  {
    var s := Decimal(n);
    if n < 10 {
      assert DigitsValue(s) == DigitsValue(s[..0]) * 10 + DigitValue(s[0]);
    } else {
      var p := Decimal(n / 10);
      DecimalRoundTrip(n / 10);
      assert s == p + [DigitChar(n % 10)];
      assert s[..|s| - 1] == p;
      assert DigitValue(s[|s| - 1]) == n % 10;
      if |p| == 1 {
        assert DigitsValue(p) == DigitsValue(p[..0]) * 10 + DigitValue(p[0]);
      }
      assert s[0] == p[0];
    }
  }

  lemma {:induction false} LeadingDigitPositive(s: string)
    requires AllDigits(s) && |s| > 0 && s[0] != '0'
    ensures DigitsValue(s) >= 1
  {
    if |s| > 1 {
      LeadingDigitPositive(s[..|s| - 1]);
    }
  }

  /** Every canonical numeral is the one Decimal writes for its value. */
  lemma {:induction false} ParseDecimalRoundTrip(s: string)
    requires ParseDecimal(s).Some?
    ensures Decimal(ParseDecimal(s).value) == s
  {
    var last := s[|s| - 1];
    assert DigitChar(DigitValue(last)) == last;
    if |s| > 1 {
      var p := s[..|s| - 1];
      assert Canonical(p);
      ParseDecimalRoundTrip(p);
      LeadingDigitPositive(p);
      var n := DigitsValue(s);
      assert n / 10 == DigitsValue(p) && n % 10 == DigitValue(last);
      assert s == p + [last];
    }
  }

  /** Different numbers never share a numeral. */
  lemma DecimalInjective(a: nat, b: nat)
    requires Decimal(a) == Decimal(b)
    ensures a == b
  {
    DecimalRoundTrip(a);
    DecimalRoundTrip(b);
  }
}

=== FILE: product_controller.dfy ===
/** The five endpoints of the product controller over the products table:
    index (200), store (201 / 422), show (200 / 404), update (200 / 404 / 422)
    and destroy (200 / 404), each also 500 when the database refuses the
    write. Every read goes through `deleted_at IS NULL`,
    update and destroy look the row up before anything else, and a database
    refusal surfaces as a server error (500) with the table untouched. */
module ProductController {
  import opened Base
  import Sku
  import opened Schema
  import opened ProductModel
  import opened Validation

  /** A POST body. Only name, country_code and load_date are forwarded to the
      model; a client-sent sku is read by nobody. */
  datatype StoreRequest = StoreRequest(name: Value, countryCode: Value, loadDate: DateValue, sku: Value)

  /** A PUT body; again a client-sent sku is never forwarded. */
  datatype UpdateRequest = UpdateRequest(name: Value, countryCode: Value, loadDate: DateValue, sku: Value)

  datatype Response =
    | Listed(products: seq<Product>)
    | Created(product: Product)
    | Shown(product: Product)
    | Updated(product: Product)
    | Deleted
    | NotFound
    | Unprocessable(errors: set<Field>)
    | ServerError(error: DbError)

  /** The HTTP status each response is sent with: 201 for a creation, 404,
      422 or 500 for the failures, 200 for everything else. */
  function Status(r: Response): (code: nat)
    ensures code in {200, 201, 404, 422, 500}
    ensures code == 201 <==> r.Created?
    ensures code >= 400 <==> r.NotFound? || r.Unprocessable? || r.ServerError?
  {
    match r
    case Created(_) => 201
    case NotFound => 404
    case Unprocessable(_) => 422
    case ServerError(_) => 500
    case _ => 200
  }

  /** The table after a request, and what the client is told. */
  datatype Reply = Reply(table: Table, response: Response)

  /** `whereNull('deleted_at')->get()`, in storage order: every active row
      as often as it is stored, and no other row. */
  function ActiveRows(rows: seq<Product>): (r: seq<Product>)
    ensures forall p :: multiset(r)[p] == (if p.Active() then multiset(rows)[p] else 0)
    ensures forall p :: p in r <==> p in rows && p.Active()
    ensures |r| <= |rows|
  {
    if |rows| == 0 then []
    else
      var rest := ActiveRows(rows[1..]);
      assert rows == [rows[0]] + rows[1..];
      assert multiset(rows) == multiset([rows[0]]) + multiset(rows[1..]);
      if rows[0].Active() then [rows[0]] + rest else rest
  }

  /** Whether some active row carries this id. */
  ghost predicate HasActive(t: Table, id: int) {
    exists i :: 0 <= i < |t.rows| && t.rows[i].id == id && t.rows[i].Active()
  }

  /** `whereNull('deleted_at')->find($id)`: the position of the first active
      row with this id. */
  function FindActive(rows: seq<Product>, id: int): (r: Option<nat>)
    ensures r.Some? ==> r.value < |rows| && rows[r.value].id == id && rows[r.value].Active()
    ensures r.None? <==> forall i :: 0 <= i < |rows| ==> !(rows[i].id == id && rows[i].Active())
  {
    if |rows| == 0 then None
    else if rows[0].id == id && rows[0].Active() then Some(0)
    else
      match FindActive(rows[1..], id)
      case Some(k) => Some(k + 1)
      case None =>
        assert forall i :: 1 <= i < |rows| ==> rows[i] == rows[1..][i - 1];
        None
  }

  /** GET /products: exactly the rows whose deleted_at is null, each as
      often as it is stored. */
  function Index(t: Table): (r: Response)
    ensures r.Listed?
    ensures forall p :: multiset(r.products)[p] == (if p.Active() then multiset(t.rows)[p] else 0)
    ensures forall p :: p in r.products <==> p in t.rows && p.Active()
  {
    Listed(ActiveRows(t.rows))
  }

  function StoreRequestErrors(req: StoreRequest): set<Field> {
    StoreErrors(req.name, req.countryCode, req.loadDate)
  }

  /** The array store() hands to Product::create: name, country_code and
      load_date of the body, a missing load_date being null, and a blank one
      or one the database cannot read passed on as the string it is. */
  function StoreAttributes(req: StoreRequest): Attributes
    requires req.name.Str? && req.countryCode.Str?
  {
    Attributes(req.name.s, None, req.countryCode.s,
      match req.loadDate
      case Date(d) => Some(At(d))
      case DateBlank(s) => Some(Text(s))
      case DateUnreadable(s) => Some(Text(s))
      case _ => None)
  }

  /** POST /products. An invalid body is answered 422 with the failing fields
      and the table untouched. A valid one creates exactly one active row from
      name, country_code and load_date alone, so its SKU is always the derived
      one, and answers 201 with it; the country code is stored as its CHAR
      column gives it back. A database refusal (500), among them a code whose
      first two bytes split a character, a whitespace-only load_date or one
      the database cannot read, or a clock outside the TIMESTAMP range,
      leaves the table untouched; the table changes exactly when the answer
      is 201. */
  function Store(t: Table, req: StoreRequest, now: Timestamp): (r: Reply)
    ensures StoreRequestErrors(req) != {} ==> r == Reply(t, Unprocessable(StoreRequestErrors(req)))
    ensures StoreRequestErrors(req) == {} ==> Status(r.response) == 201 || Status(r.response) == 500
    ensures StoreRequestErrors(req) == {} && Sku.FirstTwoBytes(req.countryCode.s).None? ==>
      r == Reply(t, ServerError(InvalidEncoding(SkuColumn)))
    ensures StoreRequestErrors(req) == {} && (req.loadDate.DateBlank? || req.loadDate.DateUnreadable?) && !IsEmpty(Some(req.loadDate.s)) ==>
      Status(r.response) == 500 && r.table == t
    ensures StoreRequestErrors(req) == {} && !InTimestampRange(now) ==>
      Status(r.response) == 500 && r.table == t
    ensures Status(r.response) == 201 <==> r.table != t
    ensures !r.response.Created? ==> r.table == t
    ensures r.response.Created? ==>
      var p := r.response.product;
      && req.name.Str? && req.countryCode.Str?
      && r.table == Table(t.rows + [p], t.autoIncrement + 1)
      && p.id == t.autoIncrement
      && p.Active()
      && p.name == req.name.s
      && p.countryCode == CharValue(req.countryCode.s, CountryCodeWidth)
      && p.loadDate == (if req.loadDate.Date? then req.loadDate.t else now)
      && Sku.Derive(req.countryCode.s, NextId(t)) == Some(p.sku)
      && Sku.Parse(p.sku) == Some(Sku.Parts(Upper(Sku.FirstTwoBytes(req.countryCode.s).value), NextId(t)))
  {
    var errors := StoreRequestErrors(req);
    if errors != {} then Reply(t, Unprocessable(errors))
    else
      match Create(t, StoreAttributes(req), now)
      case Done(w) =>
        assert |w.table.rows| != |t.rows|;
        Reply(w.table, Created(w.row))
      case Failed(e) => Reply(t, ServerError(e))
  }

  /** GET /products/{id}: the active row with that id, or 404 when there is
      none, whether it never existed or was soft-deleted. */
  function Show(t: Table, id: int): (r: Response)
    ensures r.Shown? || r.NotFound?
    ensures Status(r) == 404 <==> !HasActive(t, id)
    ensures r.Shown? ==> r.product in t.rows && r.product.id == id && r.product.Active()
  {
    match FindActive(t.rows, id)
    case Some(i) => Shown(t.rows[i])
    case None => NotFound
  }

  /** `$request->only(['name', 'country_code', 'load_date'])`: the fields the
      body holds, with their values. Once the update rules have passed, a
      field is forwarded exactly when the body holds it. */
  function RequestChanges(req: UpdateRequest): (r: Changes)
    ensures r.name.Some? <==> req.name.Str?
    ensures r.name.Some? ==> r.name.value == req.name.s
    ensures r.countryCode.Some? <==> req.countryCode.Str?
    ensures r.countryCode.Some? ==> r.countryCode.value == req.countryCode.s
    ensures r.loadDate == Some(None) <==> req.loadDate.DateNull?
    ensures req.loadDate.Date? <==> r.loadDate.Some? && r.loadDate.value.Some? && r.loadDate.value.value.At?
    ensures req.loadDate.Date? ==> r.loadDate.value.value == At(req.loadDate.t)
    ensures req.loadDate.DateBlank? || req.loadDate.DateUnreadable? <==>
      r.loadDate.Some? && r.loadDate.value.Some? && r.loadDate.value.value.Text?
    ensures req.loadDate.DateBlank? || req.loadDate.DateUnreadable? ==> r.loadDate.value.value == Text(req.loadDate.s)
    ensures UpdateRequestErrorsAsWritten(req) == {} ==>
      && (r.name.Some? <==> !req.name.Absent?)
      && (r.countryCode.Some? <==> !req.countryCode.Absent?)
      && (r.loadDate.Some? <==> !req.loadDate.DateAbsent?)
  {
    Changes(
      if req.name.Str? then Some(req.name.s) else None,
      if req.countryCode.Str? then Some(req.countryCode.s) else None,
      match req.loadDate
      case Date(d) => Some(Some(At(d)))
      case DateBlank(s) => Some(Some(Text(s)))
      case DateUnreadable(s) => Some(Some(Text(s)))
      case DateNull => Some(None)
      case _ => None)
  }

  /** Look the active row up, validate, then write at time now: the order
      both update variants share. On success (200) only the supplied fields
      change, each to the value its column holds of it (when the row was one
      its columns hold): the row keeps its id, SKU, active state and
      position, and every other row and the id sequence stay as they were. */
  function Patch(t: Table, id: int, errors: set<Field>, ch: Changes, now: Timestamp): (r: Reply)
    ensures FindActive(t.rows, id).None? ==> r == Reply(t, NotFound)
    ensures FindActive(t.rows, id).Some? && errors != {} ==> r == Reply(t, Unprocessable(errors))
    ensures Status(r.response) == 200 <==> r.response.Updated?
    ensures !r.response.Updated? ==> r.table == t
    ensures r.response.Updated? ==>
      && errors == {}
      && FindActive(t.rows, id).Some?
      && var i := FindActive(t.rows, id).value;
      var before := t.rows[i];
      var p := r.response.product;
      && |r.table.rows| == |t.rows|
      && r.table.autoIncrement == t.autoIncrement
      && r.table.rows[i] == p
      && p.id == id && p.sku == before.sku && p.Active()
      && (ch.name.None? ==> p.name == before.name)
      && (ch.name.Some? && FitsRow(before) ==> p.name == VarcharValue(ch.name.value, NameWidth))
      && (ch.countryCode.None? ==> p.countryCode == before.countryCode)
      && (ch.countryCode.Some? && FitsRow(before) ==> p.countryCode == CharValue(ch.countryCode.value, CountryCodeWidth))
      && (ch.loadDate.Some? ==> ch.loadDate.value == Some(At(p.loadDate)))
      && (ch.loadDate.None? ==> p.loadDate == before.loadDate)
      && (forall j :: 0 <= j < |t.rows| && j != i ==> r.table.rows[j] == t.rows[j])
  {
    match FindActive(t.rows, id)
    case None => Reply(t, NotFound)
    case Some(i) =>
      if errors != {} then Reply(t, Unprocessable(errors))
      else
        match ProductModel.Update(t, i, ch, now)
        case Done(w) => Reply(w.table, Updated(w.row))
        case Failed(e) => Reply(t, ServerError(e))
  }

  /** A successful update of id changed only the fields the body supplied,
      among name, country_code and load_date, each to the value its column
      holds of it (when the row was one its columns hold): the row keeps its
      id, SKU, active state and position, and every other row and the id
      sequence stay as they were. */
  ghost predicate SuppliedFieldsOnly(t: Table, id: int, req: UpdateRequest, r: Reply) {
    r.response.Updated? ==>
      && FindActive(t.rows, id).Some?
      && var i := FindActive(t.rows, id).value;
      var before := t.rows[i];
      var p := r.response.product;
      && |r.table.rows| == |t.rows|
      && r.table.autoIncrement == t.autoIncrement
      && r.table.rows[i] == p
      && p.id == id && p.sku == before.sku && p.Active()
      && (!req.name.Str? ==> p.name == before.name)
      && (req.name.Str? && FitsRow(before) ==> p.name == VarcharValue(req.name.s, NameWidth))
      && (!req.countryCode.Str? ==> p.countryCode == before.countryCode)
      && (req.countryCode.Str? && FitsRow(before) ==> p.countryCode == CharValue(req.countryCode.s, CountryCodeWidth))
      && p.loadDate == (if req.loadDate.Date? then req.loadDate.t else before.loadDate)
      && (forall j :: 0 <= j < |t.rows| && j != i ==> r.table.rows[j] == t.rows[j])
  }

  /** The update rules exactly as the controller writes them, load_date
      being 'nullable|date'. */
  function UpdateRequestErrorsAsWritten(req: UpdateRequest): set<Field> {
    UpdateErrors(req.name, req.countryCode, req.loadDate, true)
  }

  /** PUT /products/{id} as written: a null load_date passes validation and
      is then written to the NOT NULL column. */
  function UpdateAsWritten(t: Table, id: int, req: UpdateRequest, now: Timestamp): (r: Reply)
    ensures !HasActive(t, id) ==> r == Reply(t, NotFound)
    ensures HasActive(t, id) && UpdateRequestErrorsAsWritten(req) != {} ==> r == Reply(t, Unprocessable(UpdateRequestErrorsAsWritten(req)))
    ensures Status(r.response) == 200 <==> r.response.Updated?
    ensures !r.response.Updated? ==> r.table == t
    ensures SuppliedFieldsOnly(t, id, req, r)
  {
    Patch(t, id, UpdateRequestErrorsAsWritten(req), RequestChanges(req), now)
  }

  /** The update rules with load_date read as 'sometimes|date', so that a
      null load_date is refused by validation instead of by the database. */
  function UpdateRequestErrors(req: UpdateRequest): set<Field> {
    UpdateErrors(req.name, req.countryCode, req.loadDate, false)
  }

  /** PUT /products/{id}. A missing or soft-deleted id is 404 before the body
      is looked at; an invalid body is 422; both leave the table untouched.
      On success (200) only the supplied fields among name, country_code and
      load_date change: the row keeps its id, SKU and position, and every
      other row is unchanged. */
  function Update(t: Table, id: int, req: UpdateRequest, now: Timestamp): (r: Reply)
    ensures !HasActive(t, id) ==> r == Reply(t, NotFound)
    ensures HasActive(t, id) && UpdateRequestErrors(req) != {} ==> r == Reply(t, Unprocessable(UpdateRequestErrors(req)))
    ensures Status(r.response) == 200 <==> r.response.Updated?
    ensures !r.response.Updated? ==> r.table == t
    ensures SuppliedFieldsOnly(t, id, req, r)
  {
    Patch(t, id, UpdateRequestErrors(req), RequestChanges(req), now)
  }

  /** DELETE /products/{id}. A missing or already soft-deleted id is 404 with
      the table untouched. Otherwise the row stays where it is with deleted_at
      set to now, and nothing else changes; a clock outside the TIMESTAMP
      range is refused by the column and answered 500. */
  function Destroy(t: Table, id: int, now: Timestamp): (r: Reply)
    ensures !HasActive(t, id) ==> r == Reply(t, NotFound)
    ensures HasActive(t, id) && !InTimestampRange(now) ==> r == Reply(t, ServerError(OutOfRange(DeletedAtColumn)))
    ensures Status(r.response) == 200 <==> HasActive(t, id) && InTimestampRange(now)
    ensures HasActive(t, id) && InTimestampRange(now) ==>
      && r.response == Deleted
      && FindActive(t.rows, id).Some?
      && var i := FindActive(t.rows, id).value;
      && |r.table.rows| == |t.rows|
      && r.table.autoIncrement == t.autoIncrement
      && r.table.rows[i] == t.rows[i].(deletedAt := Some(now))
      && (forall j :: 0 <= j < |t.rows| && j != i ==> r.table.rows[j] == t.rows[j])
  {
    match FindActive(t.rows, id)
    case None => Reply(t, NotFound)
    case Some(i) =>
      match Delete(t, i, now)
      case Done(t') => Reply(t', Deleted)
      case Failed(e) => Reply(t, ServerError(e))
  }

  /** After a soft delete the id has no active row left: ids are unique. The
      row itself is still stored, now marked deleted. */
  lemma DestroyDeactivates(t: Table, id: int, now: Timestamp)
    requires Valid(t) && HasActive(t, id) && InTimestampRange(now)
    ensures !HasActive(Destroy(t, id, now).table, id)
    ensures exists j :: 0 <= j < |Destroy(t, id, now).table.rows| && Destroy(t, id, now).table.rows[j].id == id
  {
    var i := FindActive(t.rows, id).value;
    var t' := Destroy(t, id, now).table;
    forall j | 0 <= j < |t'.rows| && j != i
      ensures t'.rows[j].id != id
    {
      if j < i {
        assert t.rows[j].id < t.rows[i].id;
      } else {
        assert t.rows[i].id < t.rows[j].id;
      }
    }
    assert t'.rows[i].id == id;
  }

  /** Once destroyed, an id is gone from the listing, show and both update
      variants answer 404 for it, and a second destroy answers 404 too, each
      leaving the table as it is. */
  lemma DestroyedIdIsGone(t: Table, id: int, now: Timestamp, later: Timestamp, req: UpdateRequest)
    requires Valid(t) && HasActive(t, id) && InTimestampRange(now)
    ensures var t' := Destroy(t, id, now).table;
      && (forall p :: p in Index(t').products ==> p.id != id)
      && Show(t', id) == NotFound
      && Update(t', id, req, later) == Reply(t', NotFound)
      && UpdateAsWritten(t', id, req, later) == Reply(t', NotFound)
      && Destroy(t', id, later) == Reply(t', NotFound)
  {
    DestroyDeactivates(t, id, now);
    var t' := Destroy(t, id, now).table;
    forall p | p in Index(t').products
      ensures p.id != id
    {
      var j :| 0 <= j < |t'.rows| && t'.rows[j] == p;
    }
  }

  /** Soft-deleting a row does not change the number the next derived SKU
      will carry: the lookup counts soft-deleted rows. */
  lemma DestroyKeepsNextSku(t: Table, id: int, now: Timestamp)
    ensures NextId(Destroy(t, id, now).table) == NextId(t)
  {
    match FindActive(t.rows, id)
    case None =>
    case Some(i) =>
      if InTimestampRange(now) {
        DeleteKeepsNextId(t, i, now);
      }
  }

  /** In a table whose derived-shape SKUs all lag behind the next id, a valid
      create answers 201 exactly when the country code's first two bytes are
      whole characters, a load_date string the database cannot read is one
      empty() holds for, and the
      load date and the clock (which created_at receives) fit the TIMESTAMP
      columns; the SKU it stores names the new row's own id. */
  lemma ValidStoreSucceeds(t: Table, req: StoreRequest, now: Timestamp)
    requires Valid(t) && DerivedSkusBehind(t)
    requires StoreRequestErrors(req) == {}
    ensures Status(Store(t, req, now).response) == 201 <==>
      && Sku.FirstTwoBytes(req.countryCode.s).Some?
      && (req.loadDate.DateBlank? || req.loadDate.DateUnreadable? ==> IsEmpty(Some(req.loadDate.s)))
      && InTimestampRange(if req.loadDate.Date? then req.loadDate.t else now)
      && InTimestampRange(now)
    ensures Store(t, req, now).response.Created? ==>
      var p := Store(t, req, now).response.product;
      Sku.Parse(p.sku) == Some(Sku.Parts(Upper(Sku.FirstTwoBytes(req.countryCode.s).value), p.id))
  {
    CreateDerivedSku(t, StoreAttributes(req), now);
  }

  /** A create keeps the schema's guarantees, and the lag of derived SKUs
      behind the next id. */
  lemma StoreKeepsValid(t: Table, req: StoreRequest, now: Timestamp)
    requires Valid(t) && DerivedSkusBehind(t)
    ensures Valid(Store(t, req, now).table) && DerivedSkusBehind(Store(t, req, now).table)
  {
    if StoreRequestErrors(req) == {} {
      var a := StoreAttributes(req);
      if Create(t, a, now).Done? {
        CreateKeepsValid(t, a, now);
      }
    }
  }

  lemma PatchKeepsValid(t: Table, id: int, errors: set<Field>, ch: Changes, now: Timestamp)
    requires Valid(t) && DerivedSkusBehind(t)
    ensures Valid(Patch(t, id, errors, ch, now).table) && DerivedSkusBehind(Patch(t, id, errors, ch, now).table)
  {
    match FindActive(t.rows, id)
    case None =>
    case Some(i) =>
      if errors == {} && ProductModel.Update(t, i, ch, now).Done? {
        ProductModel.UpdateKeepsValid(t, i, ch, now);
      }
  }

  /** Both update variants keep the schema's guarantees and the lag of
      derived SKUs: no id or SKU moves. */
  lemma UpdateKeepsValid(t: Table, id: int, req: UpdateRequest, now: Timestamp)
    requires Valid(t) && DerivedSkusBehind(t)
    ensures Valid(Update(t, id, req, now).table) && DerivedSkusBehind(Update(t, id, req, now).table)
    ensures Valid(UpdateAsWritten(t, id, req, now).table) && DerivedSkusBehind(UpdateAsWritten(t, id, req, now).table)
  {
    PatchKeepsValid(t, id, UpdateRequestErrors(req), RequestChanges(req), now);
    PatchKeepsValid(t, id, UpdateRequestErrorsAsWritten(req), RequestChanges(req), now);
  }

  /** A soft delete keeps the schema's guarantees and the lag of derived SKUs. */
  lemma DestroyKeepsValid(t: Table, id: int, now: Timestamp)
    requires Valid(t) && DerivedSkusBehind(t)
    ensures Valid(Destroy(t, id, now).table) && DerivedSkusBehind(Destroy(t, id, now).table)
  {
    match FindActive(t.rows, id)
    case None =>
    case Some(i) =>
      if InTimestampRange(now) {
        DeleteKeepsValid(t, i, now);
      }
  }

  /** As written, an update whose load_date is null passes validation on an
      active row and is then refused by the NOT NULL load_date column: the
      client gets a 500 for a body the rules accepted. */
  lemma NullLoadDateUpdateIsServerError(t: Table, id: int, req: UpdateRequest, now: Timestamp)
    requires HasActive(t, id)
    requires req.loadDate == DateNull && NameOnUpdate(req.name) && CountryCodeOnUpdate(req.countryCode)
    ensures UpdateRequestErrorsAsWritten(req) == {}
    ensures UpdateAsWritten(t, id, req, now) == Reply(t, ServerError(NotNullViolation(LoadDateColumn)))
  {
  }

  /** A load_date string the TIMESTAMP column cannot read passes both
      readings of the update rules: `date` does not run on a blank one and
      accepts one PHP's date parser reads. The column then refuses it: the
      client gets a 500 and the table is untouched. */
  lemma UnreadableLoadDateUpdateIsServerError(t: Table, id: int, req: UpdateRequest, now: Timestamp)
    requires HasActive(t, id) && (req.loadDate.DateBlank? || req.loadDate.DateUnreadable?)
    ensures LoadDateField !in UpdateRequestErrors(req) && LoadDateField !in UpdateRequestErrorsAsWritten(req)
    ensures UpdateRequestErrors(req) == {} ==>
      Update(t, id, req, now) == Reply(t, ServerError(IncorrectValue(LoadDateColumn)))
    ensures UpdateRequestErrorsAsWritten(req) == {} ==>
      UpdateAsWritten(t, id, req, now) == Reply(t, ServerError(IncorrectValue(LoadDateColumn)))
  {
  }

  /** Whether the body changes a stored value of the active row with this
      id: only then does save() write, with updated_at set to the clock. */
  predicate ChangesRow(t: Table, id: int, req: UpdateRequest) {
    match FindActive(t.rows, id)
    case None => false
    case Some(i) => Dirty(t.rows[i], RequestChanges(req))
  }

  /** With load_date read as 'sometimes|date', a null load_date is refused
      with 422, and a body that passes validation on an active row answers
      200 exactly when its load_date is one the TIMESTAMP column reads and
      holds and, if it changes the row, its name and country_code fit their
      columns up to trailing spaces and the clock fits updated_at. */
  lemma ValidatedUpdateSucceeds(t: Table, id: int, req: UpdateRequest, now: Timestamp)
    requires Valid(t) && HasActive(t, id)
    ensures req.loadDate == DateNull ==> LoadDateField in UpdateRequestErrors(req)
    ensures UpdateRequestErrors(req) == {} ==>
      (Status(Update(t, id, req, now).response) == 200 <==>
        && !req.loadDate.DateBlank? && !req.loadDate.DateUnreadable?
        && (req.loadDate.Date? ==> InTimestampRange(req.loadDate.t))
        && (ChangesRow(t, id, req) ==>
              && (req.name.Str? ==> FitsWidth(req.name.s, NameWidth))
              && (req.countryCode.Str? ==> FitsWidth(req.countryCode.s, CountryCodeWidth))
              && InTimestampRange(now)))
  {
    var i := FindActive(t.rows, id).value;
    assert FitsRow(t.rows[i]);
  }
}

=== FILE: product_model.dfy ===
/** The Product model: its mass-assignable attributes, the creating hook that
    fills in the SKU and load date, and soft deletion. Creating runs the hook
    and then inserts; updating only rewrites the fields handed to it, and only
    when one of them changes; deleting only sets deleted_at. */
module ProductModel {
  import opened Base
  import Sku
  import opened Schema

  /** The $fillable attributes: name, sku, country_code and load_date. id,
      deleted_at and the timestamps are not among them, so mass assignment
      can never set them. A None is an attribute that was null or not given. */
  datatype Attributes = Attributes(
    name: string,
    sku: Option<string>,
    countryCode: string,
    loadDate: Option<DateInput>)

  /** The attributes handed to update(); None leaves the column alone, and
      Some(None) for loadDate writes NULL. */
  datatype Changes = Changes(
    name: Option<string>,
    countryCode: Option<string>,
    loadDate: Option<Option<DateInput>>)

  /** The id of the latest row, soft-deleted rows included (withTrashed),
      plus one; 1 for a table that has never held a row. Rows are appended in
      creation order, so the latest row is the last one. */
  function NextId(t: Table): (r: nat)
    ensures r >= 1
    ensures |t.rows| > 0 ==> r > t.rows[|t.rows| - 1].id
  {
    if |t.rows| == 0 then 1 else t.rows[|t.rows| - 1].id + 1
  }

  /** The SKU and load date a row is persisted with, as the creating hook
      leaves them. A None SKU stands for the bytes the hook builds when the
      country code's first two bytes split a character: they are not UTF-8. */
  datatype Prepared = Prepared(sku: Option<string>, loadDate: DateInput)

  /** PHP's empty() on the load_date attribute: null, or a string that
      empty() holds for. */
  predicate EmptyDate(d: Option<DateInput>) {
    d.None? || (d.value.Text? && IsEmpty(Some(d.value.s)))
  }

  /** The creating hook. An empty SKU (null, "" or "0") is replaced by the
      derived one; a non-empty SKU is kept verbatim. An empty load date
      (null, "" or "0") becomes the current time; any other is kept, a
      whitespace-only string included. */
  function Creating(t: Table, a: Attributes, now: Timestamp): (r: Prepared)
    ensures a.sku !in {None, Some(""), Some("0")} ==> r.sku == a.sku
    ensures a.sku in {None, Some(""), Some("0")} ==> (r.sku.None? <==> Sku.FirstTwoBytes(a.countryCode).None?)
    ensures a.sku in {None, Some(""), Some("0")} && |a.countryCode| >= 2 && r.sku.Some? ==>
      Sku.Parse(r.sku.value) == Some(Sku.Parts(Upper(Sku.FirstTwoBytes(a.countryCode).value), NextId(t)))
    ensures a.loadDate !in {None, Some(Text("")), Some(Text("0"))} ==> r.loadDate == a.loadDate.value
    ensures a.loadDate in {None, Some(Text("")), Some(Text("0"))} ==> r.loadDate == At(now)
  {
    assert EmptyDate(a.loadDate) <==> a.loadDate in {None, Some(Text("")), Some(Text("0"))};
    var loadDate := if EmptyDate(a.loadDate) then At(now) else a.loadDate.value;
    if !IsEmpty(a.sku) then
      Prepared(a.sku, loadDate)
    else
      Prepared(Sku.Derive(a.countryCode, NextId(t)), loadDate)
  }

  /** Product::create at time now: run the creating hook, then insert, with
      created_at and updated_at set to now. Bytes that are not UTF-8 are
      refused by the database before anything else. */
  function Create(t: Table, a: Attributes, now: Timestamp): (r: DbResult<Written>)
    ensures Creating(t, a, now).sku.None? ==> r == Failed(InvalidEncoding(SkuColumn))
    ensures r.Done? <==>
      var p := Creating(t, a, now);
      && p.sku.Some?
      && FitsColumns(a.name, a.countryCode)
      && StorableDate(p.loadDate)
      && InTimestampRange(now)
      && !SkuTaken(t, p.sku.value)
    ensures r.Done? ==>
      && r.value.table.rows == t.rows + [r.value.row]
      && r.value.table.autoIncrement == t.autoIncrement + 1
      && r.value.row.id == t.autoIncrement
      && r.value.row.name == VarcharValue(a.name, NameWidth)
      && r.value.row.countryCode == CharValue(a.countryCode, CountryCodeWidth)
      && r.value.row.Active()
    ensures r.Done? ==> Some(r.value.row.sku) == Creating(t, a, now).sku && At(r.value.row.loadDate) == Creating(t, a, now).loadDate
    ensures Creating(t, a, now).sku.Some? && SkuTaken(t, Creating(t, a, now).sku.value) ==> r == Failed(UniqueViolation(SkuColumn))
  {
    var p := Creating(t, a, now);
    match p.sku
    case None => Failed(InvalidEncoding(SkuColumn))
    case Some(sku) => Insert(t, a.name, sku, a.countryCode, p.loadDate, now)
  }

  /** An attribute as save() writes it: when it was supplied with a value
      that differs from the stored one; otherwise it stays out of the
      UPDATE. */
  function Changed<T(==)>(supplied: Option<T>, stored: T): (r: Option<T>)
    ensures r.Some? <==> supplied.Some? && supplied.value != stored
    ensures r.Some? ==> r == supplied
  {
    if supplied.Some? && supplied.value != stored then supplied else None
  }

  /** Eloquent's dirty check: whether some supplied attribute differs from
      the stored one. A load date is compared as an instant. */
  predicate Dirty(before: Product, ch: Changes) {
    || Changed(ch.name, before.name).Some?
    || Changed(ch.countryCode, before.countryCode).Some?
    || Changed(ch.loadDate, Some(At(before.loadDate))).Some?
  }

  /** $model->update() at time now: the supplied attributes replace the
      stored ones, and save() writes those that differ, with updated_at set
      to now; when none differs no query runs and nothing can fail. The
      creating hook does not run, so the SKU is never recomputed, even when
      the country code changes. A written value lands in the row as its
      column holds it; for a row already as its columns hold it, so does a
      supplied value equal to the stored one. */
  function Update(t: Table, i: nat, ch: Changes, now: Timestamp): (r: DbResult<Written>)
    requires i < |t.rows|
    ensures r.Done? <==>
      var before := t.rows[i];
      || !Dirty(before, ch)
      || (&& (ch.name.Some? && ch.name.value != before.name ==> FitsWidth(ch.name.value, NameWidth))
          && (ch.countryCode.Some? && ch.countryCode.value != before.countryCode ==>
                FitsWidth(ch.countryCode.value, CountryCodeWidth))
          && (ch.loadDate.Some? && ch.loadDate.value != Some(At(before.loadDate)) ==>
                ch.loadDate.value.Some? && StorableDate(ch.loadDate.value.value))
          && InTimestampRange(now))
    ensures !Dirty(t.rows[i], ch) ==> r == Done(Written(t, t.rows[i]))
    ensures r.Done? ==>
      var before := t.rows[i];
      var row := r.value.row;
      && row.id == before.id
      && row.sku == before.sku
      && row.deletedAt == before.deletedAt
      && (ch.name.None? ==> row.name == before.name)
      && (ch.name.Some? && FitsRow(before) ==> row.name == VarcharValue(ch.name.value, NameWidth))
      && (ch.countryCode.None? ==> row.countryCode == before.countryCode)
      && (ch.countryCode.Some? && FitsRow(before) ==> row.countryCode == CharValue(ch.countryCode.value, CountryCodeWidth))
      && (ch.loadDate.Some? ==> ch.loadDate.value == Some(At(row.loadDate)))
      && (ch.loadDate.None? ==> row.loadDate == before.loadDate)
      && |r.value.table.rows| == |t.rows|
      && r.value.table.rows[i] == row
      && r.value.table.autoIncrement == t.autoIncrement
      && (forall j :: 0 <= j < |t.rows| && j != i ==> r.value.table.rows[j] == t.rows[j])
    ensures ch.loadDate == Some(None) ==> r == Failed(NotNullViolation(LoadDateColumn))
    ensures ch.loadDate.Some? && ch.loadDate.value.Some? && ch.loadDate.value.value.Text? ==>
      r == Failed(IncorrectValue(LoadDateColumn))
  {
    var before := t.rows[i];
    if !Dirty(before, ch) then Done(Written(t, before))
    else
      UpdateAt(t, i,
        Changed(ch.name, before.name),
        Changed(ch.countryCode, before.countryCode),
        Changed(ch.loadDate, Some(At(before.loadDate))),
        now)
  }

  /** $model->delete() on a soft-deleting model: row i is marked deleted at
      the current time; every other row, and the id sequence, stay as they
      were. */
  function Delete(t: Table, i: nat, now: Timestamp): (r: DbResult<Table>)
    requires i < |t.rows|
    ensures r.Done? <==> InTimestampRange(now)
    ensures r.Done? ==>
      && |r.value.rows| == |t.rows|
      && r.value.autoIncrement == t.autoIncrement
      && r.value.rows[i] == t.rows[i].(deletedAt := Some(now))
      && !r.value.rows[i].Active()
      && (forall j :: 0 <= j < |t.rows| && j != i ==> r.value.rows[j] == t.rows[j])
  {
    SoftDeleteAt(t, i, now)
  }

  /** In a valid table the hook's next id is exactly the id the sequence
      hands out, and lies above every id ever used, soft-deleted rows
      included. */
  lemma NextIdIsFresh(t: Table)
    requires Valid(t)
    ensures NextId(t) == t.autoIncrement
    ensures forall j :: 0 <= j < |t.rows| ==> t.rows[j].id < NextId(t)
  {
    forall j | 0 <= j < |t.rows|
      ensures t.rows[j].id < NextId(t)
    {
      if j < |t.rows| - 1 {
        assert t.rows[j].id < t.rows[|t.rows| - 1].id;
      }
    }
  }

  /** Soft deletion keeps every row and id, so the next derived SKU suffix is
      unchanged by it. */
  lemma DeleteKeepsNextId(t: Table, i: nat, now: Timestamp)
    requires i < |t.rows|
    requires Delete(t, i, now).Done?
    ensures NextId(Delete(t, i, now).value) == NextId(t)
  {
    var t' := Delete(t, i, now).value;
    if i != |t.rows| - 1 {
      assert t'.rows[|t.rows| - 1] == t.rows[|t.rows| - 1];
    }
  }

  /** Every row whose SKU has the derived shape carries a number below the
      next id, so the SKU about to be derived is still free. Tables that only
      ever received derived SKUs keep this; a seeded SKU from the future
      breaks it. */
  ghost predicate DerivedSkusBehind(t: Table) {
    forall j :: 0 <= j < |t.rows| && Sku.Parse(t.rows[j].sku).Some? ==> Sku.Parse(t.rows[j].sku).value.number < NextId(t)
  }

  /** Creating with a derived SKU from a two-character country code cannot
      hit the unique index while derived SKUs lag behind: it succeeds exactly
      when the code's first two bytes are whole characters, the load date is
      an instant its column holds, and the clock fits created_at; the created
      row's SKU embeds its own id. */
  lemma CreateDerivedSku(t: Table, a: Attributes, now: Timestamp)
    requires Valid(t) && DerivedSkusBehind(t)
    requires IsEmpty(a.sku) && |a.countryCode| == 2 && |a.name| <= NameWidth
    ensures Create(t, a, now).Done? <==>
      && Sku.FirstTwoBytes(a.countryCode).Some?
      && StorableDate(Creating(t, a, now).loadDate)
      && InTimestampRange(now)
    ensures Create(t, a, now).Done? ==>
      Sku.Parse(Create(t, a, now).value.row.sku) ==
        Some(Sku.Parts(Upper(Sku.FirstTwoBytes(a.countryCode).value), Create(t, a, now).value.row.id))
  {
    NextIdIsFresh(t);
    var p := Creating(t, a, now);
    if p.sku.Some? {
      assert Sku.Parse(p.sku.value).value.number == NextId(t);
    }
  }

  /** Creating preserves the schema's guarantees and the lag of derived SKUs
      whenever the SKU it stores is derived. */
  lemma CreateKeepsValid(t: Table, a: Attributes, now: Timestamp)
    requires Valid(t)
    requires Create(t, a, now).Done?
    ensures Valid(Create(t, a, now).value.table)
    ensures DerivedSkusBehind(t) && IsEmpty(a.sku) && |a.countryCode| == 2 ==> DerivedSkusBehind(Create(t, a, now).value.table)
  {
    var p := Creating(t, a, now);
    InsertKeepsValid(t, a.name, p.sku.value, a.countryCode, p.loadDate, now);
    var t' := Create(t, a, now).value.table;
    NextIdIsFresh(t);
    assert NextId(t') == NextId(t) + 1;
    if DerivedSkusBehind(t) && IsEmpty(a.sku) && |a.countryCode| == 2 {
      forall j | 0 <= j < |t'.rows| && Sku.Parse(t'.rows[j].sku).Some?
        ensures Sku.Parse(t'.rows[j].sku).value.number < NextId(t')
      {
        if j < |t.rows| {
          assert t'.rows[j] == t.rows[j];
        }
      }
    }
  }

  /** Updating preserves the schema's guarantees and the lag of derived SKUs:
      no id or SKU moves. */
  lemma UpdateKeepsValid(t: Table, i: nat, ch: Changes, now: Timestamp)
    requires Valid(t) && i < |t.rows|
    requires Update(t, i, ch, now).Done?
    ensures Valid(Update(t, i, ch, now).value.table)
    ensures DerivedSkusBehind(t) ==> DerivedSkusBehind(Update(t, i, ch, now).value.table)
  {
    var before := t.rows[i];
    if Dirty(before, ch) {
      Schema.UpdateKeepsValid(t, i,
        Changed(ch.name, before.name),
        Changed(ch.countryCode, before.countryCode),
        Changed(ch.loadDate, Some(At(before.loadDate))),
        now);
    }
    var t' := Update(t, i, ch, now).value.table;
    assert NextId(t') == NextId(t) by {
      if i != |t.rows| - 1 {
        assert t'.rows[|t.rows| - 1] == t.rows[|t.rows| - 1];
      }
    }
    assert forall j :: 0 <= j < |t.rows| ==> t'.rows[j].sku == t.rows[j].sku;
  }

  /** Deleting preserves the schema's guarantees and the lag of derived SKUs. */
  lemma DeleteKeepsValid(t: Table, i: nat, now: Timestamp)
    requires Valid(t) && i < |t.rows|
    requires Delete(t, i, now).Done?
    ensures Valid(Delete(t, i, now).value)
    ensures DerivedSkusBehind(t) ==> DerivedSkusBehind(Delete(t, i, now).value)
  {
    SoftDeleteKeepsValid(t, i, now);
    DeleteKeepsNextId(t, i, now);
    var t' := Delete(t, i, now).value;
    assert forall j :: 0 <= j < |t.rows| ==> t'.rows[j].sku == t.rows[j].sku;
  }
}

=== FILE: schema.dfy ===
/** The products table as the migration creates it: an auto-incrementing
    primary id, a name of at most 255 characters, a SKU unique across every
    row (soft-deleted rows included), a CHAR(2) country code, a NOT NULL
    load_date, a nullable deleted_at that marks soft deletion, and the
    created_at / updated_at pair; all of these dates are TIMESTAMP columns.
    The framework writes the current time into created_at and updated_at on
    every insert and on every update that changes something; the model checks
    that time against the column but does not store it. The database is
    taken to be strict (MySQL in strict mode): a value too long for its
    column, a NULL in a NOT NULL column, a string that is no datetime in a
    TIMESTAMP column, a date outside the TIMESTAMP range or bytes that are
    not UTF-8 are refused, never truncated or defaulted. The one exception
    holds in every mode: spaces past the end of a CHAR or VARCHAR column are
    dropped, not refused. */
module Schema {
  import opened Base

  /** One row of the products table. */
  datatype Product = Product(
    id: nat,
    name: string,
    sku: string,
    countryCode: string,
    loadDate: Timestamp,
    deletedAt: Option<Timestamp>)
  {
    /** A row is active exactly when deleted_at is NULL. */
    predicate Active() {
      deletedAt.None?
    }
  }

  /** The rows in insertion order, and the value the id sequence hands out next. */
  datatype Table = Table(rows: seq<Product>, autoIncrement: nat)

  /** A table that has never held a row. */
  const Fresh: Table := Table([], 1)

  /** `string('name')` is VARCHAR(255). */
  const NameWidth: nat := 255
  /** `char('country_code', 2)`. */
  const CountryCodeWidth: nat := 2

  /** A TIMESTAMP holds 1970-01-01 00:00:01 to 2038-01-19 03:14:07 UTC; in
      Unix seconds, 1 to 2^31 - 1. */
  const TimestampMin: int := 1
  const TimestampMax: int := 0x7FFF_FFFF

  predicate InTimestampRange(t: Timestamp) {
    TimestampMin <= t <= TimestampMax
  }

  datatype Column =
    | NameColumn | SkuColumn | CountryCodeColumn | LoadDateColumn
    | DeletedAtColumn | CreatedAtColumn | UpdatedAtColumn

  datatype DbError =
    | UniqueViolation(column: Column)
    | NotNullViolation(column: Column)
    | DataTooLong(column: Column)
    | OutOfRange(column: Column)
    | IncorrectValue(column: Column)
    | InvalidEncoding(column: Column)

  /** A value bound for the load_date column: an instant, or a string that
      is no datetime literal the column reads (a blank one, or one only
      PHP's date parser understands). */
  datatype DateInput = At(t: Timestamp) | Text(s: string)

  datatype DbResult<+T> = Done(value: T) | Failed(error: DbError)

  /** A table after a write, and the row written. */
  datatype Written = Written(table: Table, row: Product)

  /** Whether a CHAR or VARCHAR column of this width takes the string: every
      character past the width is a space, which the column drops whatever
      the SQL mode. Any other excess is refused. */
  predicate FitsWidth(s: string, width: nat) {
    forall k :: width <= k < |s| ==> s[k] == ' '
  }

  predicate FitsColumns(name: string, countryCode: string) {
    FitsWidth(name, NameWidth) && FitsWidth(countryCode, CountryCodeWidth)
  }

  predicate NoTrailingSpace(s: string) {
    |s| == 0 || s[|s| - 1] != ' '
  }

  /** The string without its trailing spaces. */
  function TrimTrailingSpaces(s: string): (r: string)
    ensures |r| <= |s| && r == s[..|r|]
    ensures forall k :: |r| <= k < |s| ==> s[k] == ' '
    ensures NoTrailingSpace(r)
  {
    if |s| > 0 && s[|s| - 1] == ' ' then
      var r := TrimTrailingSpaces(s[..|s| - 1]);
      assert s[..|s| - 1][..|r|] == s[..|r|];
      r
    else s
  }

  /** What a VARCHAR column of this width holds of a string it takes: the
      string itself, less the spaces past the width. */
  function VarcharValue(s: string, width: nat): (r: string)
    ensures |r| <= width && |r| <= |s| && r == s[..|r|]
    ensures |s| <= width ==> r == s
    ensures FitsWidth(s, width) ==> forall k :: |r| <= k < |s| ==> s[k] == ' '
  {
    if |s| <= width then s else s[..width]
  }

  /** What a CHAR column of this width gives back of a string it takes: the
      value is padded with spaces when stored and read back with every
      trailing space removed, so only the string less its trailing spaces
      survives. */
  function CharValue(s: string, width: nat): (r: string)
    ensures |r| <= width && |r| <= |s| && r == s[..|r|]
    ensures NoTrailingSpace(r)
    ensures FitsWidth(s, width) ==> forall k :: |r| <= k < |s| ==> s[k] == ' '
    ensures |s| <= width && NoTrailingSpace(s) ==> r == s
  {
    var v := VarcharValue(s, width);
    assert s[..|v|] == v;
    var r := TrimTrailingSpaces(v);
    assert v[..|r|] == s[..|r|];
    r
  }

  /** A stored row's values are as their columns hold them: the name within
      its width, the country code within its width and without trailing
      spaces, and the dates in the TIMESTAMP range. */
  predicate FitsRow(p: Product) {
    && |p.name| <= NameWidth
    && |p.countryCode| <= CountryCodeWidth && NoTrailingSpace(p.countryCode)
    && InTimestampRange(p.loadDate)
    && (p.deletedAt.Some? ==> InTimestampRange(p.deletedAt.value))
  }

  /** Whether some row, active or soft-deleted, already carries this SKU. */
  predicate SkuTaken(t: Table, sku: string) {
    exists i :: 0 <= i < |t.rows| && t.rows[i].sku == sku
  }

  /** What the schema guarantees of every stored table: positive ids that
      increase in insertion order (so no two rows share one), pairwise
      distinct SKUs, values that fit their columns, and an id sequence that
      continues after the last id handed out. */
  ghost predicate Valid(t: Table) {
    && (forall i :: 0 <= i < |t.rows| ==> 1 <= t.rows[i].id)
    && (forall i :: 0 <= i < |t.rows| ==> FitsRow(t.rows[i]))
    && (forall i, j :: 0 <= i < j < |t.rows| ==> t.rows[i].id < t.rows[j].id)
    && (forall i, j :: 0 <= i < j < |t.rows| ==> t.rows[i].sku != t.rows[j].sku)
    && t.autoIncrement == (if |t.rows| == 0 then 1 else t.rows[|t.rows| - 1].id + 1)
  }

  /** Whether a value bound for load_date is an instant the TIMESTAMP column
      holds. */
  predicate StorableDate(d: DateInput) {
    d.At? && InTimestampRange(d.t)
  }

  /** INSERT of a new row at time now: the id comes from the sequence,
      deleted_at is NULL, and created_at and updated_at receive now. It is
      refused when the SKU is already taken by any row, soft-deleted ones
      included, when a value does not fit its column, or when load_date or
      now is no instant the TIMESTAMP columns hold. The name and country
      code are stored as their columns hold them. */
  function Insert(t: Table, name: string, sku: string, countryCode: string, loadDate: DateInput, now: Timestamp): (r: DbResult<Written>)
    ensures r.Done? <==> FitsColumns(name, countryCode) && StorableDate(loadDate) && InTimestampRange(now) && !SkuTaken(t, sku)
    ensures SkuTaken(t, sku) ==> r == Failed(UniqueViolation(SkuColumn))
    ensures !SkuTaken(t, sku) && FitsColumns(name, countryCode) && loadDate.Text? ==> r == Failed(IncorrectValue(LoadDateColumn))
    ensures !SkuTaken(t, sku) && FitsColumns(name, countryCode) && StorableDate(loadDate) && !InTimestampRange(now) ==>
      r == Failed(OutOfRange(CreatedAtColumn))
    ensures r.Done? ==>
      && r.value.row == Product(t.autoIncrement, VarcharValue(name, NameWidth), sku,
                                CharValue(countryCode, CountryCodeWidth), loadDate.t, None)
      && r.value.table == Table(t.rows + [r.value.row], t.autoIncrement + 1)
  {
    if SkuTaken(t, sku) then Failed(UniqueViolation(SkuColumn))
    else if !FitsWidth(name, NameWidth) then Failed(DataTooLong(NameColumn))
    else if !FitsWidth(countryCode, CountryCodeWidth) then Failed(DataTooLong(CountryCodeColumn))
    else if loadDate.Text? then Failed(IncorrectValue(LoadDateColumn))
    else if !InTimestampRange(loadDate.t) then Failed(OutOfRange(LoadDateColumn))
    else if !InTimestampRange(now) then Failed(OutOfRange(CreatedAtColumn))
    else
      var row := Product(t.autoIncrement, VarcharValue(name, NameWidth), sku,
                         CharValue(countryCode, CountryCodeWidth), loadDate.t, None);
      Done(Written(Table(t.rows + [row], t.autoIncrement + 1), row))
  }

  /** UPDATE of row i at time now, which updated_at receives, setting only
      the columns given: a None leaves a column out of the statement, and
      Some(None) for the load date is a NULL written to the NOT NULL column.
      The id, SKU, deleted_at and every other row are untouched. */
  function UpdateAt(t: Table, i: nat, name: Option<string>, countryCode: Option<string>, loadDate: Option<Option<DateInput>>, now: Timestamp): (r: DbResult<Written>)
    requires i < |t.rows|
    ensures r.Done? <==>
      && (loadDate.Some? ==> loadDate.value.Some? && StorableDate(loadDate.value.value))
      && (name.Some? ==> FitsWidth(name.value, NameWidth))
      && (countryCode.Some? ==> FitsWidth(countryCode.value, CountryCodeWidth))
      && InTimestampRange(now)
    ensures loadDate == Some(None) ==> r == Failed(NotNullViolation(LoadDateColumn))
    ensures loadDate.Some? && loadDate.value.Some? && loadDate.value.value.Text? ==> r == Failed(IncorrectValue(LoadDateColumn))
    ensures name.Some? && !FitsWidth(name.value, NameWidth) && (loadDate.Some? ==> loadDate.value.Some? && loadDate.value.value.At?) ==>
      r == Failed(DataTooLong(NameColumn))
    ensures r.Done? ==>
      var before := t.rows[i];
      var row := r.value.row;
      && row.id == before.id && row.sku == before.sku && row.deletedAt == before.deletedAt
      && row.name == (if name.Some? then VarcharValue(name.value, NameWidth) else before.name)
      && row.countryCode == (if countryCode.Some? then CharValue(countryCode.value, CountryCodeWidth) else before.countryCode)
      && row.loadDate == (if loadDate.Some? then loadDate.value.value.t else before.loadDate)
      && r.value.table == t.(rows := t.rows[i := row])
  {
    var before := t.rows[i];
    if loadDate == Some(None) then Failed(NotNullViolation(LoadDateColumn))
    else if loadDate.Some? && loadDate.value.value.Text? then Failed(IncorrectValue(LoadDateColumn))
    else if name.Some? && !FitsWidth(name.value, NameWidth) then Failed(DataTooLong(NameColumn))
    else if countryCode.Some? && !FitsWidth(countryCode.value, CountryCodeWidth) then Failed(DataTooLong(CountryCodeColumn))
    else if loadDate.Some? && !InTimestampRange(loadDate.value.value.t) then Failed(OutOfRange(LoadDateColumn))
    else if !InTimestampRange(now) then Failed(OutOfRange(UpdatedAtColumn))
    else
      var row := before.(
        name := if name.Some? then VarcharValue(name.value, NameWidth) else before.name,
        countryCode := if countryCode.Some? then CharValue(countryCode.value, CountryCodeWidth) else before.countryCode,
        loadDate := if loadDate.Some? then loadDate.value.value.t else before.loadDate);
      Done(Written(t.(rows := t.rows[i := row]), row))
  }

  /** Soft deletion: deleted_at of row i is set (and updated_at, which the
      model does not store, with it); the row stays in the table. A clock
      outside the TIMESTAMP range is refused like any other date. */
  function SoftDeleteAt(t: Table, i: nat, now: Timestamp): (r: DbResult<Table>)
    requires i < |t.rows|
    ensures r.Done? <==> InTimestampRange(now)
    ensures r.Failed? ==> r.error == OutOfRange(DeletedAtColumn)
    ensures r.Done? ==> |r.value.rows| == |t.rows| && r.value.autoIncrement == t.autoIncrement
    ensures r.Done? ==> r.value.rows[i] == t.rows[i].(deletedAt := Some(now))
    ensures r.Done? ==> forall j :: 0 <= j < |t.rows| && j != i ==> r.value.rows[j] == t.rows[j]
  {
    if !InTimestampRange(now) then Failed(OutOfRange(DeletedAtColumn))
    else Done(t.(rows := t.rows[i := t.rows[i].(deletedAt := Some(now))]))
  }

  /** An insert hands out an id above every id already used, so the new row's
      id is unique, and the schema's guarantees still hold afterwards. */
  lemma InsertKeepsValid(t: Table, name: string, sku: string, countryCode: string, loadDate: DateInput, now: Timestamp)
    requires Valid(t)
    requires Insert(t, name, sku, countryCode, loadDate, now).Done?
    ensures var w := Insert(t, name, sku, countryCode, loadDate, now).value;
      && (forall j :: 0 <= j < |t.rows| ==> t.rows[j].id < w.row.id)
      && Valid(w.table)
  {
    var w := Insert(t, name, sku, countryCode, loadDate, now).value;
    var rows := w.table.rows;
    assert forall j :: 0 <= j < |t.rows| ==> rows[j] == t.rows[j];
    forall j | 0 <= j < |t.rows|
      ensures t.rows[j].id < w.row.id
    {
      if j < |t.rows| - 1 {
        assert t.rows[j].id < t.rows[|t.rows| - 1].id;
      }
    }
    forall j | 0 <= j < |t.rows|
      ensures t.rows[j].sku != w.row.sku
    {
      if t.rows[j].sku == w.row.sku {
        assert SkuTaken(t, sku);
      }
    }
  }

  /** Rewriting name, country code and load date keeps the guarantees: ids and
      SKUs are untouched, and the new values were checked against their columns. */
  lemma UpdateKeepsValid(t: Table, i: nat, name: Option<string>, countryCode: Option<string>, loadDate: Option<Option<DateInput>>, now: Timestamp)
    requires Valid(t) && i < |t.rows|
    requires UpdateAt(t, i, name, countryCode, loadDate, now).Done?
    ensures Valid(UpdateAt(t, i, name, countryCode, loadDate, now).value.table)
  {
    var t' := UpdateAt(t, i, name, countryCode, loadDate, now).value.table;
    assert forall j :: 0 <= j < |t.rows| ==> t'.rows[j].id == t.rows[j].id && t'.rows[j].sku == t.rows[j].sku;
  }

  /** Soft deletion keeps the guarantees: only deleted_at changes. */
  lemma SoftDeleteKeepsValid(t: Table, i: nat, now: Timestamp)
    requires Valid(t) && i < |t.rows|
    requires SoftDeleteAt(t, i, now).Done?
    ensures Valid(SoftDeleteAt(t, i, now).value)
  {
    var t' := SoftDeleteAt(t, i, now).value;
    assert forall j :: 0 <= j < |t.rows| ==> t'.rows[j].id == t.rows[j].id && t'.rows[j].sku == t.rows[j].sku;
  }
}

=== FILE: seed_example.dfy ===
/** The five sample products the seeder creates through the model, each with
    an explicit SKU, as a concrete table, and the seeder run that builds it
    from an empty table. The explicit SKUs follow the derived shape with
    numbers 1 to 5, so the next derived SKU carries 6. */
module SeedExample {
  import opened Base
  import Sku
  import opened Schema
  import opened ProductModel
  import opened Validation
  import opened ProductController

  /** The seeder's attribute arrays, each with an explicit SKU; the load
      dates are 2024-01-15 10:00:00 UTC and the following days, in Unix
      seconds. */
  const SeederAttributes: seq<Attributes> := [
    Attributes("iPhone 15", Some("CTUS1"), "US", Some(At(1705312800))),
    Attributes("Samsung Galaxy S24", Some("CTKR2"), "KR", Some(At(1705404600))),
    Attributes("Xiaomi Mi 13", Some("CTCN3"), "CN", Some(At(1705484700))),
    Attributes("Google Pixel 8", Some("CTUS4"), "US", Some(At(1705587600))),
    Attributes("Sony Xperia 1 V", Some("CTJP5"), "JP", Some(At(1705680600)))
  ]

  /** `Product::create` for each attribute array in turn, stopping at the
      first refusal. */
  function CreateAll(t: Table, attrs: seq<Attributes>, now: Timestamp): (r: DbResult<Table>)
    ensures r.Done? ==> |r.value.rows| == |t.rows| + |attrs| && r.value.rows[..|t.rows|] == t.rows
    decreases |attrs|
  {
    if |attrs| == 0 then Done(t)
    else
      match Create(t, attrs[0], now)
      case Failed(e) => Failed(e)
      case Done(w) =>
        var r := CreateAll(w.table, attrs[1..], now);
        if r.Done? then
          assert r.value.rows[..|t.rows|] == r.value.rows[..|w.table.rows|][..|t.rows|];
          r
        else r
  }

  const SeededTable: Table := Table([
    Product(1, "iPhone 15", "CTUS1", "US", 1705312800, None),
    Product(2, "Samsung Galaxy S24", "CTKR2", "KR", 1705404600, None),
    Product(3, "Xiaomi Mi 13", "CTCN3", "CN", 1705484700, None),
    Product(4, "Google Pixel 8", "CTUS4", "US", 1705587600, None),
    Product(5, "Sony Xperia 1 V", "CTJP5", "JP", 1705680600, None)
  ], 6)

  lemma SeededTableValid()
    ensures Valid(SeededTable)
    ensures NextId(SeededTable) == 6
  {
    var rows := SeededTable.rows;
    assert forall j :: 0 <= j < |rows| ==> rows[j].id == j + 1 && |rows[j].sku| == 5 && rows[j].sku[4] == DigitChar(j + 1);
    assert forall j :: 0 <= j < |rows| ==> FitsRow(rows[j]);
    forall i, j | 0 <= i < j < |rows|
      ensures rows[i].sku != rows[j].sku
    {
      assert rows[i].sku[4] != rows[j].sku[4];
    }
  }

  /** Each seeded SKU is the derived shape for its own country code and id. */
  lemma SeededSkuParses(j: nat)
    requires j < |SeededTable.rows|
    ensures Sku.Parse(SeededTable.rows[j].sku) == Some(Sku.Parts(SeededTable.rows[j].countryCode, j + 1))
  {
    var r := SeededTable.rows[j];
    assert r.sku == Sku.Prefix + r.countryCode + Decimal(j + 1);
    assert Utf8Length(r.countryCode) == 2 by {
      assert r.countryCode[..1] == [r.countryCode[0]] && r.countryCode[..1][..0] == [];
      assert r.countryCode[..2] == r.countryCode;
    }
    Sku.ParseWellFormed(r.countryCode, j + 1);
  }

  /** The seeded SKUs carry the numbers 1 to 5, all below the next id 6. */
  lemma SeededSkusBehind()
    ensures DerivedSkusBehind(SeededTable)
  {
    SeededTableValid();
    forall j | 0 <= j < |SeededTable.rows|
      ensures Sku.Parse(SeededTable.rows[j].sku).value.number < NextId(SeededTable)
    {
      SeededSkuParses(j);
    }
  }

  /** An empty table satisfies the schema's guarantees and holds no SKU. */
  lemma FreshIsValid()
    ensures Valid(Fresh) && DerivedSkusBehind(Fresh)
    ensures NextId(Fresh) == 1
  {
  }

  /** The table after the seeder's first k creates. */
  function SeededUpTo(k: nat): Table
    requires k <= |SeededTable.rows|
  {
    Table(SeededTable.rows[..k], k + 1)
  }

  /** The seeder's k-th create appends the k-th seeded row: its SKU is kept
      because it is not empty, and no earlier row holds it. */
  lemma SeederStep(k: nat, now: Timestamp)
    requires k < |SeederAttributes| && InTimestampRange(now)
    ensures Create(SeededUpTo(k), SeederAttributes[k], now) == Done(Written(SeededUpTo(k + 1), SeededTable.rows[k]))
  {
    SeededTableValid();
    var rows := SeededTable.rows;
    var a := SeederAttributes[k];
    assert a == Attributes(rows[k].name, Some(rows[k].sku), rows[k].countryCode, Some(At(rows[k].loadDate)));
    assert |rows[k].sku| == 5;
    assert FitsRow(rows[k]);
    assert VarcharValue(a.name, NameWidth) == a.name && CharValue(a.countryCode, CountryCodeWidth) == a.countryCode;
    assert !SkuTaken(SeededUpTo(k), rows[k].sku) by {
      forall j | 0 <= j < k
        ensures SeededUpTo(k).rows[j].sku != rows[k].sku
      {
        assert SeededUpTo(k).rows[j] == rows[j];
      }
    }
    assert rows[..k] + [rows[k]] == rows[..k + 1];
  }

  /** The seeder's remaining creates, from the table after the first k. */
  lemma {:induction false} SeederFrom(k: nat, now: Timestamp)
    requires k <= |SeederAttributes| && InTimestampRange(now)
    ensures CreateAll(SeededUpTo(k), SeederAttributes[k..], now) == Done(SeededTable)
    decreases |SeederAttributes| - k
  {
    if k == |SeederAttributes| {
      assert SeededTable.rows[..k] == SeededTable.rows;
    } else {
      SeederStep(k, now);
      assert SeederAttributes[k..][1..] == SeederAttributes[k + 1..];
      SeederFrom(k + 1, now);
    }
  }

  /** Running the seeder on an empty table creates exactly the seeded table
      when the clock fits created_at: every load date is given, and every SKU
      is kept as given because none is empty. */
  lemma SeederBuildsSeededTable(now: Timestamp)
    requires InTimestampRange(now)
    ensures CreateAll(Fresh, SeederAttributes, now) == Done(SeededTable)
  {
    SeederFrom(0, now);
    assert SeederAttributes[0..] == SeederAttributes;
  }

  /** With a clock outside the TIMESTAMP range the seeder's very first create
      is refused at created_at, and nothing is stored. */
  lemma SeederRefusesClock(now: Timestamp)
    requires !InTimestampRange(now)
    ensures CreateAll(Fresh, SeederAttributes, now) == Failed(OutOfRange(CreatedAtColumn))
  {
  }

  /** A valid create against the seeded table answers 201 exactly when the
      clock fits created_at, with a row whose id is 6 and whose SKU is
      derived with the number 6. */
  lemma SeededStoreDerivesSix(now: Timestamp)
    ensures var r := Store(SeededTable, StoreRequest(Str("Nokia X"), Str("fi"), Date(1705766400), Absent), now);
      && (Status(r.response) == 201 <==> InTimestampRange(now))
      && (r.response.Created? ==> r.response.product.id == 6)
      && (r.response.Created? ==> Sku.Parse(r.response.product.sku) == Some(Sku.Parts("FI", 6)))
  {
    var req := StoreRequest(Str("Nokia X"), Str("fi"), Date(1705766400), Absent);
    assert Upper("fi") == "FI";
    assert "fi"[..2] == "fi";
    assert !Blank("Nokia X") by { assert !IsTrimmable("Nokia X"[0]); }
    assert !Blank("fi") by { assert !IsTrimmable("fi"[0]); }
    SeededTableValid();
    SeededSkusBehind();
    ValidStoreSucceeds(SeededTable, req, now);
  }

  /** A country code starting with a two-byte character passes `size:2` and
      contributes that one character to the SKU: "ÑA" gives "CTÑ6", whenever
      the clock fits created_at. */
  lemma SeededStoreTwoByteCode(now: Timestamp)
    ensures var r := Store(SeededTable, StoreRequest(Str("Nokia X"), Str("ÑA"), Date(1705766400), Absent), now);
      && (Status(r.response) == 201 <==> InTimestampRange(now))
      && (r.response.Created? ==> r.response.product.sku == "CTÑ6")
  {
    var req := StoreRequest(Str("Nokia X"), Str("ÑA"), Date(1705766400), Absent);
    assert !Blank("Nokia X") by { assert !IsTrimmable("Nokia X"[0]); }
    assert !Blank("ÑA") by { assert !IsTrimmable("ÑA"[0]); }
    assert Upper("Ñ") == "Ñ";
    SeededTableValid();
    SeededSkusBehind();
    ValidStoreSucceeds(SeededTable, req, now);
  }

  /** A country code whose second character takes two bytes also passes
      `size:2`, but its first two bytes end inside that character: the SKU
      is not UTF-8, the database refuses it, and the client gets a 500. */
  lemma SeededStoreSplitCharacter(now: Timestamp)
    ensures Store(SeededTable, StoreRequest(Str("Nokia X"), Str("AÑ"), Date(1705766400), Absent), now)
      == Reply(SeededTable, ServerError(InvalidEncoding(SkuColumn)))
  {
    assert !Blank("Nokia X") by { assert !IsTrimmable("Nokia X"[0]); }
    assert !Blank("AÑ") by { assert !IsTrimmable("AÑ"[0]); }
  }

  /** A load_date that PHP's date parser reads but the database does not,
      such as "Jan 20, 2024", passes `nullable|date` and reaches the
      TIMESTAMP column as the string it is: the column refuses it and the
      client gets a 500, the table unchanged. */
  lemma SeededStoreUnreadableDate(now: Timestamp)
    ensures Store(SeededTable, StoreRequest(Str("Nokia X"), Str("FI"), DateUnreadable("Jan 20, 2024"), Absent), now)
      == Reply(SeededTable, ServerError(IncorrectValue(LoadDateColumn)))
  {
    assert !Blank("Nokia X") by { assert !IsTrimmable("Nokia X"[0]); }
    assert !Blank("FI") by { assert !IsTrimmable("FI"[0]); }
    assert "FI"[..2] == "FI";
    assert Upper("FI") == "FI";
    SeededTableValid();
    SeededSkusBehind();
    ValidStoreSucceeds(SeededTable, StoreRequest(Str("Nokia X"), Str("FI"), DateUnreadable("Jan 20, 2024"), Absent), now);
  }

  /** A country_code of three spaces skips the update rules, as blank
      strings do, and fits CHAR(2), whose excess spaces are dropped: with the
      clock in range the update answers 200, and the code reads back as the
      empty string. */
  lemma SeededUpdateSpacesCode(now: Timestamp)
    requires InTimestampRange(now)
    ensures var r := ProductController.Update(SeededTable, 1, UpdateRequest(Absent, Str("   "), DateAbsent, Absent), now);
      && Status(r.response) == 200
      && r.response.product.countryCode == ""
      && r.table.rows[0] == r.response.product
  {
    SeededTableValid();
    var req := UpdateRequest(Absent, Str("   "), DateAbsent, Absent);
    assert Blank("   ");
    assert FitsWidth("   ", CountryCodeWidth);
    assert FindActive(SeededTable.rows, 1) == Some(0);
    assert TrimTrailingSpaces("  ") == "";
    assert CharValue("   ", CountryCodeWidth) == "";
  }
}

=== FILE: sku.dfy ===
/** The SKU format the creating hook derives: "CT", the upper-cased first two
    BYTES of the country code, then the decimal next id ("CTUS6"). PHP's
    substr() counts bytes of the UTF-8 encoding, so a code that starts with a
    two-byte character contributes that one character ("ÑA" gives "CTÑ6"), and
    a code whose first two bytes end inside a character yields bytes that are
    not UTF-8 at all. Parse is the inverse on well-formed SKUs, so facts about
    derived SKUs can be read off the SKU. */
module Sku {
  import opened Base

  const Prefix: string := "CT"

  /** The pieces of a SKU of derived shape. */
  datatype Parts = Parts(country: string, number: nat)

  function Min(a: nat, b: nat): nat {
    if a < b then a else b
  }

  /** substr($code, 0, 2) on the UTF-8 encoding of the code: the whole
      characters making up its first two bytes, or None when those bytes stop
      in the middle of a character (the result is then not valid UTF-8). */
  function FirstTwoBytes(code: string): (r: Option<string>)
    ensures r.Some? ==> r.value <= code && Utf8Length(r.value) == Min(Utf8Length(code), 2)
    ensures r.None? ==> forall k :: 0 <= k <= |code| ==> Utf8Length(code[..k]) != Min(Utf8Length(code), 2)
    ensures r.Some? && |code| >= 2 ==> Utf8Length(r.value) == 2
  {
    Utf8LengthMonotone(code, 0, |code|);
    assert code[..|code|] == code;
    if |code| == 0 then Some("")
    else
      assert code[..1][..0] == code[..0];
      Utf8LengthMonotone(code, 1, |code|);
      if Utf8Width(code[0]) == 2 then Some(code[..1])
      else if Utf8Width(code[0]) > 2 then
        assert forall k :: 1 <= k <= |code| ==> Utf8Length(code[..k]) >= Utf8Length(code[..1]) by {
          forall k | 1 <= k <= |code| { Utf8LengthMonotone(code, 1, k); }
        }
        None
      else if |code| == 1 then Some(code[..1])
      else
        assert code[..2][..1] == code[..1];
        Utf8LengthMonotone(code, 2, |code|);
        if Utf8Width(code[1]) == 1 then Some(code[..2])
        else
          assert forall k :: 2 <= k <= |code| ==> Utf8Length(code[..k]) >= Utf8Length(code[..2]) by {
            forall k | 2 <= k <= |code| { Utf8LengthMonotone(code, 2, k); }
          }
          None
  }

  /** The SKU the creating hook derives from a country code and the next id;
      None when the code's first two bytes split a character, so that the
      derived SKU is not valid UTF-8. A well-formed derived SKU of two country
      bytes parses back to the upper-cased country part and the id. */
  function Derive(countryCode: string, nextId: nat): (r: Option<string>)
    ensures r.Some? <==> FirstTwoBytes(countryCode).Some?
    ensures r.Some? && Utf8Length(FirstTwoBytes(countryCode).value) == 2 ==>
      Parse(r.value) == Some(Parts(Upper(FirstTwoBytes(countryCode).value), nextId))
  {
    match FirstTwoBytes(countryCode)
    case None => None
    case Some(head) =>
      var sku := Prefix + Upper(head) + Decimal(nextId);
      assert Utf8Length(head) == 2 ==> Parse(sku) == Some(Parts(Upper(head), nextId)) by {
        UpperKeepsUtf8Length(head);
        if Utf8Length(head) == 2 {
          ParseWellFormed(Upper(head), nextId);
        }
      }
      Some(sku)
  }

  /** Splits a SKU of derived shape into its country part (one two-byte
      character, or two one-byte characters) and its number; None for every
      string of another shape. */
  function Parse(sku: string): (r: Option<Parts>)
    ensures r.Some? ==> Utf8Length(r.value.country) == 2
    ensures r.Some? ==> Prefix + r.value.country + Decimal(r.value.number) == sku
  {
    if |sku| >= 4 && sku[..2] == Prefix && Utf8Width(sku[2]) == 2 && Canonical(sku[3..]) then
      ParseDecimalRoundTrip(sku[3..]);
      assert sku == sku[..2] + sku[2..3] + sku[3..];
      assert sku[2..3][..0] == [];
      Some(Parts(sku[2..3], DigitsValue(sku[3..])))
    else if |sku| >= 5 && sku[..2] == Prefix && Utf8Width(sku[2]) == 1 && Utf8Width(sku[3]) == 1
      && Canonical(sku[4..]) then
      ParseDecimalRoundTrip(sku[4..]);
      assert sku == sku[..2] + sku[2..4] + sku[4..];
      assert sku[2..4][..1] == sku[2..3];
      assert sku[2..3][..0] == [];
      Some(Parts(sku[2..4], DigitsValue(sku[4..])))
    else
      None
  }

  /** A SKU assembled from a two-byte country part and a number parses back
      to those two. */
  lemma ParseWellFormed(country: string, n: nat)
    requires Utf8Length(country) == 2
    ensures Parse(Prefix + country + Decimal(n)) == Some(Parts(country, n))
  {
    var sku := Prefix + country + Decimal(n);
    DecimalRoundTrip(n);
    Utf8LengthAtLeast(country);
    assert |country| != 0;
    if |country| == 1 {
      assert country[..0] == [];
      assert sku[..2] == Prefix && sku[2] == country[0] && sku[3..] == Decimal(n);
      assert sku[2..3] == country;
    } else {
      assert country[..1][..0] == [];
      assert Utf8Width(country[0]) == 1 && Utf8Width(country[1]) == 1 by {
        assert country[..1] == [country[0]];
      }
      assert sku[..2] == Prefix && sku[2..4] == country && sku[4..] == Decimal(n);
    }
  }

  /** Two derived SKUs are equal only when built from the same id and the
      same upper-cased country part. */
  lemma DeriveInjective(c1: string, n1: nat, c2: string, n2: nat)
    requires |c1| >= 2 && |c2| >= 2
    requires Derive(c1, n1).Some? && Derive(c1, n1) == Derive(c2, n2)
    ensures n1 == n2 && Upper(FirstTwoBytes(c1).value) == Upper(FirstTwoBytes(c2).value)
  {
  }

  /** A SKU whose parsed number differs from n, or that does not parse, is
      never the SKU derived from n for a code of at least two characters. */
  lemma DerivedDiffersFrom(sku: string, countryCode: string, n: nat)
    requires |countryCode| >= 2
    requires Parse(sku).None? || Parse(sku).value.number != n
    ensures Derive(countryCode, n) != Some(sku)
  {
  }
}

=== FILE: validation.dfy ===
/** The validation rules the controller applies to request bodies, read the
    way the framework's validator reads them:
    - `required` fails on a field that is missing, null, or a string that
      trims to "";
    - the other rules (`string`, `max`, `size`, `date`) do not run at all on a
      field that is missing or on a blank string, and `nullable` also stops
      them on null;
    - `sometimes` only runs a field's rules when the field is present.
    A field fails when any of its rules that runs fails. */
module Validation {
  import opened Base

  /** A request field as the validator receives it (JSON numbers, booleans,
      arrays and objects are all NonString). */
  datatype Value = Absent | Null | Str(s: string) | NonString

  /** load_date as two parsers see it: PHP's date parser behind the `date`
      rule, and the database's reader of datetime literals, which the raw
      string reaches because the model casts no attribute to a date.
      - Date(t): a string both read, the database as the instant t
        ("2024-01-20 10:00:00");
      - DateUnreadable(s): a string the `date` rule accepts but the database
        cannot read ("Jan 20, 2024", "tomorrow");
      - NotADate: a value the `date` rule rejects;
      - DateBlank(s): a string that trims to "", on which the `date` rule
        does not run. */
  datatype DateValue =
    | DateAbsent | DateNull | DateBlank(s: string) | Date(t: Timestamp) | DateUnreadable(s: string) | NotADate

  datatype Field = NameField | CountryCodeField | LoadDateField

  /** `required` */
  predicate Required(v: Value) {
    match v
    case Str(s) => !Blank(s)
    case NonString => true
    case _ => false
  }

  /** Whether a rule other than `required` runs on the field. */
  predicate Runs(v: Value) {
    match v
    case Absent => false
    case Str(s) => !Blank(s)
    case _ => true
  }

  /** `string|max:n` once it runs: a string of at most n characters. */
  predicate StringOfAtMost(v: Value, n: nat) {
    v.Str? && |v.s| <= n
  }

  /** `string|size:n` once it runs: a string of exactly n characters. */
  predicate StringOfSize(v: Value, n: nat) {
    v.Str? && |v.s| == n
  }

  /** 'name' => 'required|string|max:255': a non-blank string of at most
      255 characters. */
  function NameOnStore(v: Value): (ok: bool)
    ensures ok <==> v.Str? && !Blank(v.s) && |v.s| <= 255
  {
    Required(v) && (Runs(v) ==> StringOfAtMost(v, 255))
  }

  /** 'country_code' => 'required|string|size:2': a non-blank string of
      exactly two characters. */
  function CountryCodeOnStore(v: Value): (ok: bool)
    ensures ok <==> v.Str? && !Blank(v.s) && |v.s| == 2
  {
    Required(v) && (Runs(v) ==> StringOfSize(v, 2))
  }

  /** 'name' => 'sometimes|string|max:255': missing, a blank string (the
      rules skip it), or a string of at most 255 characters; null and
      non-strings fail. */
  function NameOnUpdate(v: Value): (ok: bool)
    ensures ok <==> v.Absent? || (v.Str? && (Blank(v.s) || |v.s| <= 255))
  {
    Runs(v) ==> StringOfAtMost(v, 255)
  }

  /** 'country_code' => 'sometimes|string|size:2': missing, a blank string,
      or a string of exactly two characters. */
  function CountryCodeOnUpdate(v: Value): (ok: bool)
    ensures ok <==> v.Absent? || (v.Str? && (Blank(v.s) || |v.s| == 2))
  {
    Runs(v) ==> StringOfSize(v, 2)
  }

  /** Whether the `date` rule runs on load_date: not on a missing field or a
      blank string, and, under `nullable`, not on null either. */
  predicate DateRuns(d: DateValue, nullable: bool) {
    !d.DateAbsent? && !d.DateBlank? && !(nullable && d.DateNull?)
  }

  /** The `date` rule once it runs: PHP's date parser reads the value. */
  predicate IsDate(d: DateValue) {
    d.Date? || d.DateUnreadable?
  }

  /** 'load_date' => 'nullable|date': missing, null, a blank string or a
      date, whether or not the database reads it. */
  function LoadDateNullable(d: DateValue): (ok: bool)
    ensures ok <==> d.DateAbsent? || d.DateNull? || d.DateBlank? || d.Date? || d.DateUnreadable?
  {
    DateRuns(d, true) ==> IsDate(d)
  }

  /** 'load_date' => 'sometimes|date': missing, a blank string or a date;
      null fails, because `date` runs on it and null is no date. */
  function LoadDateOptional(d: DateValue): (ok: bool)
    ensures ok <==> d.DateAbsent? || d.DateBlank? || d.Date? || d.DateUnreadable?
  {
    DateRuns(d, false) ==> IsDate(d)
  }

  function FailedIf(failed: bool, f: Field): set<Field> {
    if failed then {f} else {}
  }

  /** The fields a create request is rejected for; empty means it passes. */
  function StoreErrors(name: Value, countryCode: Value, loadDate: DateValue): (r: set<Field>)
    ensures NameField in r <==> !(name.Str? && !Blank(name.s) && |name.s| <= 255)
    ensures CountryCodeField in r <==> !(countryCode.Str? && !Blank(countryCode.s) && |countryCode.s| == 2)
    ensures LoadDateField in r <==> loadDate.NotADate?
    ensures r == {} <==>
      && name.Str? && !Blank(name.s) && |name.s| <= 255
      && countryCode.Str? && !Blank(countryCode.s) && |countryCode.s| == 2
      && !loadDate.NotADate?
  {
    FailedIf(!NameOnStore(name), NameField)
      + FailedIf(!CountryCodeOnStore(countryCode), CountryCodeField)
      + FailedIf(!LoadDateNullable(loadDate), LoadDateField)
  }

  /** The fields an update request is rejected for. load_date is read by
      'nullable|date' when nullableDate holds, by 'sometimes|date' otherwise. */
  function UpdateErrors(name: Value, countryCode: Value, loadDate: DateValue, nullableDate: bool): (r: set<Field>)
    ensures NameField in r <==> !(name.Absent? || (name.Str? && (Blank(name.s) || |name.s| <= 255)))
    ensures CountryCodeField in r <==> !(countryCode.Absent? || (countryCode.Str? && (Blank(countryCode.s) || |countryCode.s| == 2)))
    ensures LoadDateField in r <==> loadDate.NotADate? || (!nullableDate && loadDate.DateNull?)
  {
    FailedIf(!NameOnUpdate(name), NameField)
      + FailedIf(!CountryCodeOnUpdate(countryCode), CountryCodeField)
      + FailedIf(!(if nullableDate then LoadDateNullable(loadDate) else LoadDateOptional(loadDate)), LoadDateField)
  }
}
